=== FILE: README.md ===
# Lucy ECS core in Dafny

This project models the data-structure layer of Lucy, a small header-only
Entity-Component-System, and proves properties of it. The layer has five parts,
one Dafny module each:

- **Entities** (`entity.dfy`): 32-bit entity handles. The low 20 bits are a slot
  index and the high 12 bits are a generation. The module covers `index`,
  `generation`, `make`, the mask constants and the `null` sentinel.
- **SparseSets** (`sparse_set.dfy`): a `dense` sequence of present handles and
  a `sparse` table from slot index to dense position, with NULL marking an
  empty slot. `remove` moves the last entry into the vacated position and
  reports the move through the `on_swap` hook.
- **ComponentPools** (`component_pool.dfy`): a sparse set plus a payload
  sequence. The `on_swap` override keeps the payloads index-for-index in step
  with `dense`.
- **Views** (`view.dfy`): iteration over several pools. The first pool of
  minimum size is the driver. A view yields the driver's handles that every
  pool holds, in driver order, with one payload per pool. It has two forms:
  `each`, and a forward cursor (`begin`, `end`, `operator*`, `operator++`).
- **Registries** (`registry.dfy`): entity creation and destruction. It keeps
  a generation per slot, a LIFO free list of slots and a live counter. It
  checks liveness and routes component operations to one pool per component
  type, creating pools on first use.

Two helper modules, `Options` and `Sequences`, provide an optional value, a
pairwise-distinct predicate and a pigeonhole lemma.

## How the model is written

- **Values.** All state is immutable datatypes, and every operation is a pure
  function from the old state to the new one. A mutating C++ member function
  becomes a function that returns the updated structure. A member that both
  mutates and returns something returns a pair.
- **Integers.** Unsigned 32-bit values are integers in `[0, 2^32)` (`U32`).
  The handle's bit operations are written arithmetically:
  - a mask `& (2^n - 1)` is `% 2^n`;
  - a right shift by `n` is `/ 2^n`;
  - a left shift is a multiplication reduced modulo 2^32;
  - `|` is a recursive bitwise OR (`Entities.BitOr`).

  This keeps almost every proof in linear integer arithmetic, which the
  solver handles reliably; the exception is `Entities.BitOrDisjoint`, which
  reasons about products with powers of two. Conversions between `bv32` and integers do not have that
  property.
- **Truncations.** Each narrowing in the source is written out:
  - `static_cast<uint32_t>` of a size is `ToU32`, reduced modulo 2^32;
  - the generation increment wraps at 32 bits and then at 12 bits;
  - the `size_t` live counter is kept modulo 2^64.
- **Undefined behaviour.** Where the C++ code would have undefined behaviour
  (`back()` on an empty vector, an index past the end), the operation takes a
  precise precondition named `...Defined`. These preconditions differ in
  how far consistency covers them:
  - `remove` on a set or a pool and `destroy` are defined in every consistent
    state (`SparseSets.WFRemoveDefined`, `ComponentPools.ValidRemoveDefined`,
    `Registries.DestroyKills`);
  - `get` is defined when the handle's slot is in range and holds a position
    below the payload count. In a consistent pool that covers every contained
    handle (`ComponentPools.LockstepGetDefined`) and every stale handle that
    shares a present handle's slot, which reads that handle's payload
    (`ComponentPools.StaleGetReadsPresent`). Only an out-of-range index or a
    NULL slot reads outside the payloads;
  - `create` is defined in a consistent registry except when all 2^20 slots
    exist and the free list is empty (`CreateDefined` is a capacity bound that
    consistency does not imply);
  - a view's `each` needs the pools' payloads in lockstep (`Views.Defined`),
    because it calls every pool's `get`; `Views.SizeHint` takes the same
    precondition only because its contract compares the hint with `each`.
    The cursor (`advance`, `begin`, `end`, `operator*`, `operator++` and the
    walk `Views.Walk`) reads only the pools' handles and needs only a driver
    among the pools.
- **Hook calls.** `SparseSets.Remove` returns the new set together with the
  hook call it made: `None` for no call, or `Swap(a, b)` for `on_swap(a, b)`.
  `ComponentPools.Remove` applies the pool's override within the same step.
  The registry removes through a base-class pointer, and the hook is virtual,
  so removal and hook together form one step there as well.
- **Views.** A view is a sequence of pools and a driver position. `each` is
  the sequence of `(entity, payloads)` rows the callback would receive. The
  cursor is a position in the driver's dense sequence, and `operator!=`
  compares positions.
- **Types and pools.** Component types are natural-number keys. The
  registry's pools are a map from key to pool over one abstract payload type.

## Model

| member | source | states |
|---|---|---|
| Entities.Widths | include/lucy/entity.hpp:11-16 | Index and generation widths are 2^20 and 2^12. Together they fill exactly 32 bits. |
| Entities.Index | include/lucy/entity.hpp:13-20 | The index of any handle is at most MAX_INDEX. |
| Entities.Generation | include/lucy/entity.hpp:14-21 | The generation of any handle is at most MAX_GEN. |
| Entities.ShiftToGeneration | include/lucy/entity.hpp:23 | On 32 bits, shifting the generation left by 20 keeps only its low 12 bits. |
| Entities.Make | include/lucy/entity.hpp:20-24 | For an index up to MAX_INDEX, `make` reads back that index. It reads back the generation reduced modulo 2^12, which is the generation itself when that is at most MAX_GEN. |
| Entities.MakeLayout | include/lucy/entity.hpp:22-24 | For an in-range index, the handle's numeric value is generation × 2^20 + index, with the generation truncated to 12 bits. |
| Entities.MakeRoundTrip | include/lucy/entity.hpp:11-24 | Every 32-bit handle is rebuilt by `make` from its own index and generation. |
| Entities.HandleEquality | include/lucy/entity.hpp:20-21 | Two handles are equal exactly when their indexes and their generations are equal. |
| Entities.NullIsMaximalHandle | include/lucy/entity.hpp:18-23 | `null` is `make(MAX_INDEX, MAX_GEN)`. |
| SparseSets.Size | include/lucy/sparse_set.hpp:47 | In a consistent set the size never exceeds the slot table, so it is at most 2^20. |
| SparseSets.Contains | include/lucy/sparse_set.hpp:36-41 | Whatever the set's state, a contained handle is listed in `dense` and its index is inside the slot table. |
| SparseSets.IsEmpty | include/lucy/sparse_set.hpp:48 | An empty set contains no handle. In a consistent set that is not empty, the first dense handle is contained. |
| SparseSets.DenseIndex | include/lucy/sparse_set.hpp:43-45 | For a contained handle, the slot's value is a dense position that holds that handle. |
| SparseSets.Add | include/lucy/sparse_set.hpp:11-18 | The handle is appended to `dense`. `sparse` grows with NULL padding up to the handle's index, the handle's slot is set to the old size (truncated to 32 bits), and other slots keep their values. Afterwards the handle is contained. |
| SparseSets.Remove | include/lucy/sparse_set.hpp:20-34 | An out-of-range or NULL slot means no change and no hook call. Otherwise: the size drops by one and the last entry fills the vacated position. Other positions are unchanged. The hook is called once, with the vacated position and the new size. |
| SparseSets.DenseBound | include/lucy/sparse_set.hpp:59-60 | In a consistent set the dense handles are pairwise distinct, and there are no more of them than slots, so at most 2^20. |
| SparseSets.ContainsIsMembership | include/lucy/sparse_set.hpp:36-41 | In a consistent set, `contains` holds exactly for handles listed in `dense`. A same-index handle with another generation is not contained. |
| SparseSets.ContainsLocates | include/lucy/sparse_set.hpp:36-45 | In a consistent set, a contained handle sits at `dense_index` and at no other position. |
| SparseSets.WFRemoveDefined | include/lucy/sparse_set.hpp:20-34 | In a consistent set, `remove` never reads outside either table. |
| SparseSets.OccupiedSlot | include/lucy/sparse_set.hpp:22 | A slot is in range and non-NULL exactly when some present handle has that index. |
| SparseSets.AddPreservesWF | include/lucy/sparse_set.hpp:11-18 | Adding a handle whose slot no present handle uses keeps the set consistent. The size grows by one, and the contained handles are the old ones plus the new one. |
| SparseSets.RemovePreservesWF | include/lucy/sparse_set.hpp:20-34 | Removal keeps the set consistent. The hook is called exactly when a present handle uses the slot. No handle with that index remains contained, and handles of other slots keep their membership. |
| SparseSets.StaleRemoveEvictsPresent | include/lucy/sparse_set.hpp:20-31 | Removal checks only the index. A stale handle removes the present handle that shares its slot. |
| ComponentPools.Empty | include/lucy/component_pool.hpp:50 | A new pool contains nothing and is consistent. |
| ComponentPools.Add | include/lucy/component_pool.hpp:12-16 | The handle goes through the base `add`, and the payload is appended as the last payload. Earlier payloads are unchanged, and lockstep is kept. |
| ComponentPools.OnSwap | include/lucy/component_pool.hpp:40-47 | The hook drops one payload. When `b` is the last position and `a` comes before it, the last payload moves to `a`. Every other position is unchanged. |
| ComponentPools.Remove | include/lucy/component_pool.hpp:18-21 | A handle that is not contained leaves the pool unchanged. Otherwise the base removal and the hook together keep lockstep. |
| ComponentPools.Get | include/lucy/component_pool.hpp:23-25 | In a consistent pool, `get(e)` is the payload at `e`'s dense position. |
| ComponentPools.TryGet | include/lucy/component_pool.hpp:31-34 | The result is absent exactly when the handle is not contained. Otherwise it is the value `get` returns. |
| ComponentPools.LockstepGetDefined | include/lucy/component_pool.hpp:23-25 | With payloads in lockstep, `get` of a contained handle stays inside the payloads. |
| ComponentPools.ValidRemoveDefined | include/lucy/component_pool.hpp:18-47 | In a consistent pool, removal and its hook never go out of range. |
| ComponentPools.AddThenGet | include/lucy/component_pool.hpp:12-25 | After `add(e, v)`, the pool stays consistent, `get(e)` is `v` and the size grows by one. Every other handle keeps its membership and its payload. |
| ComponentPools.RemoveKeepsOthers | include/lucy/component_pool.hpp:18-47 | Removal keeps the pool consistent and removes exactly `e`, shrinking the pool only if `e` was present. Every other present handle keeps its payload. |
| ComponentPools.RemoveKeepsPayloads | include/lucy/component_pool.hpp:40-47 | When a present handle is removed, every other present handle keeps its payload, including the one the hook moves into the vacated position. |
| ComponentPools.RemoveLastDropsLast | include/lucy/component_pool.hpp:40-46 | Removing the handle in the last position drops the last handle and the last payload, and nothing else. |
| ComponentPools.RemoveIdempotent | include/lucy/component_pool.hpp:18-21 | A second removal of the same handle changes nothing. |
| ComponentPools.StaleGetReadsPresent | include/lucy/component_pool.hpp:23-25 | `get` reads only the slot: a stale handle sharing a present handle's slot is not contained, yet its read is in range and returns the present handle's payload. |
| ComponentPools.RemoveStaleIsNoOp | include/lucy/component_pool.hpp:18-21 | A stale handle sharing a present handle's slot leaves the pool unchanged. |
| Views.SmallestFrom | include/lucy/view.hpp:15-19 | The constructor's scan ends at a pool of minimum size. Every earlier pool is strictly larger. |
| Views.MakeView | include/lucy/view.hpp:12-20 | The driver is a bound pool of minimum size. Ties go to the earliest pool. |
| Views.AllContain | include/lucy/view.hpp:72-74 | A handle passes the filter only if every bound pool lists it in `dense`. With no pools, every handle passes. |
| Views.Qualifying | include/lucy/view.hpp:24-29 | The loop of `each` selects, from position `i` on, at most as many handles as driver positions remain. |
| Views.ComponentsOf | include/lucy/view.hpp:27 | The payloads passed with a handle are each pool's `get`, in pool order. |
| Views.QualifyingMembers | include/lucy/view.hpp:23-30 | A handle is yielded from position `i` on exactly when it is in the driver at or after `i` and every pool holds it. |
| Views.Each | include/lucy/view.hpp:23-30 | Each row is a qualifying driver handle, taken in order, paired with every pool's payload for it. |
| Views.EachEntities | include/lucy/view.hpp:23-30 | The handles of the rows are the qualifying driver handles. |
| Views.SizeHint | include/lucy/view.hpp:69 | The size hint is the driver's size, which is a minimum over the pools, and it bounds the number of rows. |
| Views.Advance | include/lucy/view.hpp:49-55 | `advance` stops at a qualifying handle or at the driver's size. It skips only handles that do not qualify. |
| Views.Begin | include/lucy/view.hpp:34-61 | `begin` is at the first qualifying position, or at the end when none qualifies. |
| Views.End | include/lucy/view.hpp:62 | `end` is at the driver's size. |
| Views.Deref | include/lucy/view.hpp:38 | In a consistent driver, `*it` is the handle the driver stores at the cursor's position. |
| Views.Next | include/lucy/view.hpp:40-44 | `++` moves the cursor strictly forward, to the next qualifying position or to the driver's size, and every position it passes over holds a handle some pool lacks. |
| Views.QualifyingSkips | include/lucy/view.hpp:49-55 | The positions `advance` skips contribute nothing to what `each` yields. |
| Views.QualifyingSkipsTo | include/lucy/view.hpp:49-55 | Any run of positions whose handles some pool lacks adds nothing to what `each` yields. |
| Views.BeginIsEndIffEmpty | include/lucy/view.hpp:49-62 | `begin != end` holds exactly when `each` makes at least one call, that is, when some driver handle qualifies. |
| Views.Walk | include/lucy/view.hpp:34-62 | With only a driver among the pools, walking the cursor from `begin` to `end` visits every handle that all pools contain, in driver order; when `each` is defined, these are the same handles, in the same order, as `each`. |
| Views.QualifyingPosition | include/lucy/view.hpp:23-30 | A handle yielded from position `i` on sits at a driver position of at least `i`. |
| Views.QualifyingOrdered | include/lucy/view.hpp:23-30 | Yielded handles sit at strictly increasing driver positions. |
| Views.EachInDriverOrder | include/lucy/view.hpp:23-30 | `each` follows the driver's dense order. |
| Views.EachIsIntersection | include/lucy/view.hpp:23-30 | With consistent pools, `each` yields exactly the handles present in every pool, each once. |
| Views.DriverIrrelevant | include/lucy/view.hpp:12-30 | Whichever pool drives, the yielded handles are the same up to order. |
| Views.EachPairsPayloads | include/lucy/view.hpp:27 | Every row carries, for each pool, the payload that pool pairs with the row's handle. |
| Registries.Empty | include/lucy/registry.hpp:154-157 | A new registry is consistent. |
| Registries.Size | include/lucy/registry.hpp:121 | In a consistent registry the size plus the free-list length is the slot count: `size()` counts the slots not on the free list. |
| Registries.InFreeList | include/lucy/registry.hpp:147-152 | The scan reports exactly whether the slot is on the free list. |
| Registries.Create | include/lucy/registry.hpp:28-41 | With an empty free list, the new handle is (current slot count, 0) and a slot with generation 0 is appended. Otherwise the most recently freed slot is popped and returned with its stored generation. Either way the pools are untouched and the live count goes up by one. |
| Registries.RemoveFromAll | include/lucy/registry.hpp:46-50 | Every pool has run its removal for the handle, and no pool is added or dropped. |
| Registries.NextGeneration | include/lucy/registry.hpp:53 | A stored generation advances by one modulo 2^12, so it always changes. |
| Registries.Destroy | include/lucy/registry.hpp:43-56 | A handle that is not alive leaves the registry unchanged. Otherwise the handle is removed from every pool, its slot's generation advances, the slot is pushed on the free list and the live count goes down by one. |
| Registries.Alive | include/lucy/registry.hpp:58-63 | A live handle's slot exists and is not on the free list. For an existing slot with an in-range generation, a handle is alive exactly when the slot is not free and the handle is the one `make` builds from the slot's index and stored generation. |
| Registries.Has | include/lucy/registry.hpp:93-97 | A handle has the component only if the type has a pool whose dense handles include it. With consistent pools the converse holds too. |
| Registries.TryPool | include/lucy/registry.hpp:131-137 | The pool is absent exactly when the type has none. No pool is created. |
| Registries.Pool | include/lucy/registry.hpp:110-119 | The returned pool is the type's pool. An existing pool leaves the registry unchanged; otherwise an empty pool is inserted. A consistent registry stays consistent. |
| Registries.Add | include/lucy/registry.hpp:65-68 | The type's pool, created if missing, gets the base add. Other pools and the slot state are unchanged. |
| Registries.Remove | include/lucy/registry.hpp:70-74 | With no pool for the type, nothing changes and no pool is created. Otherwise only that pool runs its removal. |
| Registries.Get | include/lucy/registry.hpp:76-79 | The handle's payload in the type's pool. It is defined only when that pool already exists and addresses the handle. |
| Registries.TryGet | include/lucy/registry.hpp:86-91 | The result is absent exactly when the handle does not have the component; a type without a pool counts as not having it. Otherwise it is the value `get` returns. |
| Registries.WithPools | include/lucy/registry.hpp:105-119 | Every requested type gets a pool: existing pools are kept and missing ones are added empty. A consistent registry stays consistent. |
| Registries.View | include/lucy/registry.hpp:105-108 | The view binds each requested type's pool in request order, creating missing pools. Its driver is the earliest of those pools with minimum size, and the view is usable by `each` whenever the existing pools keep their payloads in lockstep. A consistent registry stays consistent. |
| Registries.Each | include/lucy/registry.hpp:99-103 | `each` creates the same missing pools as `view`. Every row's handle has each requested component, and the row carries, at position `j`, the value `get` returns for the `j`-th requested type. A consistent registry stays consistent. |
| Registries.Clear | include/lucy/registry.hpp:123-128 | After `clear` the size is 0, there are no pools, no handle is alive, and the registry is consistent. |
| Registries.CreateMakesAlive | include/lucy/registry.hpp:28-63 | `create` keeps the registry consistent. It returns a handle that was not alive and now is, and every handle alive before stays alive. The size grows by one. |
| Registries.CreateRecycled | include/lucy/registry.hpp:30-39 | The free-list branch of `create` keeps the slot state consistent, and its handle becomes alive. |
| Registries.CreateAppended | include/lucy/registry.hpp:34-39 | The append branch of `create` keeps the slot state consistent, and its handle becomes alive. |
| Registries.DestroyKills | include/lucy/registry.hpp:43-63 | `destroy` of an alive handle keeps the registry consistent and the handle stops being alive. No pool has the handle afterwards. Every other alive handle stays alive with its components, and the size drops by one. |
| Registries.DestroyPools | include/lucy/registry.hpp:46-50 | After `destroy`, every pool is consistent and has lost exactly that handle. |
| Registries.DestroySlots | include/lucy/registry.hpp:52-63 | After `destroy`, the slot state stays consistent, the handle is dead, other alive handles survive and the count drops by one. |
| Registries.DestroyDeadIsNoOp | include/lucy/registry.hpp:44 | `destroy` of a handle that is not alive changes nothing. |
| Registries.DestroyThenCreateRecycles | include/lucy/registry.hpp:30-63 | After `destroy(e)`, the next `create` returns `e`'s slot with the next generation. The new handle differs from `e`, it is alive, and `e` stays dead. |
| Registries.RecycleExample | include/lucy/registry.hpp:28-63 | In a new registry, the first handle e1 is (0, 0). After destroying it, `create` returns e2 = (0, 1). Then e1 is dead and e2 is alive. |
| Registries.DestroyAll | include/lucy/registry.hpp:43-56 | Destroying distinct live handles one after another keeps the registry consistent. |
| Registries.DestroyFirst | include/lucy/registry.hpp:43-63 | Destroying the first handle of such a batch pushes its slot, advances its generation by one modulo 2^12, and leaves the other handles alive. |
| Registries.DestroyAllSlots | include/lucy/registry.hpp:52-55 | After the batch, the free list is the old one followed by the batch's slots in destroy order, and the generations are the old ones bumped once per destroyed handle. |
| Registries.BumpedSlots | include/lucy/registry.hpp:53 | With the handles in distinct slots, each handle's slot ends at its generation plus one modulo 2^12, and every other slot keeps its generation. |
| Registries.AliveIndicesDistinct | include/lucy/registry.hpp:58-63 | Distinct live handles sit in distinct slots. |
| Registries.CreateN | include/lucy/registry.hpp:28-41 | `n` calls of `create` with at least `n` free slots return, in order, the slots taken from the free list's end, each with its stored generation. The free list loses its last `n` entries, and pools and generations are unchanged. |
| Registries.CreateNValid | include/lucy/registry.hpp:28-41 | Those `n` creates keep the registry consistent, and the size grows by `n`. |
| Registries.CreateNAlive | include/lucy/registry.hpp:28-63 | Every handle those creates return is alive afterwards. |
| Registries.CreateNReissues | include/lucy/registry.hpp:30-33 | When the free list ends with a batch's slots, the creates return those slots in reverse order with the generations they now hold, and the free list returns to what it was before the batch. |
| Registries.BumpedHandlesDead | include/lucy/registry.hpp:58-63 | A handle whose slot's generation has moved one on is not alive. |
| Registries.DestroyAllThenCreateAll | include/lucy/registry.hpp:28-63 | Destroying `N` distinct live handles and then creating `N` handles reuses exactly the freed slots, last in first out: the `i`-th new handle takes the slot of the `i`-th handle from the end, one generation on modulo 2^12. Afterwards the free list is as before, the registry is consistent, the new handles are alive and the destroyed ones are not. |
| Registries.Round | include/lucy/registry.hpp:28-56 | One destroy-then-create round keeps the registry consistent. It yields an alive handle at the same slot whose generation is one higher, modulo 2^12. |
| Registries.Cycles | include/lucy/registry.hpp:28-56 | After `n` rounds, the handle is alive at the same slot, and its generation has advanced `n` times. |
| Registries.AliveAtSlot | include/lucy/registry.hpp:58-63 | At most one handle per slot is alive. |
| Registries.WraparoundRevives | include/lucy/registry.hpp:53-63 | After `n` destroy/create rounds on one slot, the original handle, dead since the first round, is alive again exactly when `n` is a multiple of 2^12: the generation counter's wraparound. |
| Registries.AddThenGet | include/lucy/registry.hpp:65-79 | Adding a component, when no present handle in that pool uses the slot, keeps the registry consistent. The handle then has the component with that value, and other pools are unaffected. |
| Registries.RemoveThenHas | include/lucy/registry.hpp:70-74 | Removing a component keeps the registry consistent and clears `has` for that handle and type only. |
| Registries.EachIsIntersection | include/lucy/registry.hpp:99-108 | Through the registry, `each` yields exactly the handles that have every requested component, each once. |
| Registries.ViewMembership | include/lucy/registry.hpp:93-108 | A handle is in every pool of the view exactly when it has every requested component. |

## Left out

- Type identifiers (`detail::type_id`): these are process-wide counters, and pools are type-erased behind `unique_ptr<SparseSet>` with a `static_cast` downcast. Component types are natural-number keys instead, and all pools share one abstract payload type.
- Variadic templates, perfect forwarding and in-place construction: `add` takes a value, and views take a sequence of type keys or pools.
- Raw-pointer and reference surfaces: `data()`, `begin()` and `end()` on the sparse set, `component_data()`, the const overloads, and mutation through returned references. The cursor's pointer back to its view is not modelled: `Views.Deref` and the other cursor operations take the view as a parameter and the cursor is a position.
- `View::get<Us...>` (include/lucy/view.hpp:64-67): it is each listed pool's `get`, which `ComponentPools.Get` already models.
- Side effects of the `each` callback: `each` returns the calls it would make over a state that does not change during the walk.
- The iteration order of `unordered_map` in `destroy`: every pool is treated alike, so the order cannot matter, and the model quantifies over all pools.
- Registries.Create: index capacity overflow is not modelled. Once 2^20 slots exist and the free list is empty, `create` would build a handle whose index spills into the generation bits. `CreateDefined` requires that there is room instead.
- Registries.Get: `get` also creates the type's pool on first use, which the model does not return. Reading from a newly created pool is out of range, so a call that meets the precondition always finds an existing pool.
- ComponentPools.OnSwap: the override's middle branch (`a` past the payloads, `b` inside) is excluded by its precondition, because it would write outside the payloads. Removal never produces that call on a pool in lockstep.
- Views.Defined: `each` requires every pool's payloads to be in lockstep, because its `get` calls would otherwise read outside the payloads. The cursor operations and the walk `Views.Walk` need only a driver among the pools.
- Registries.Alive: the liveness check uses sequence membership for the free-list test. The loop `in_free_list` is modelled separately by `Registries.InFreeList`, whose contract is that membership.
- Duplicate `add`: `SparseSets.Add` models what the code does when a present handle already uses the slot, but `SparseSets.AddPreservesWF` assumes the caller never does this, as the library requires.

=== FILE: component_pool.dfy ===
/**
  A component pool: a sparse set plus a payload sequence kept index-for-index
  in step with the set's `dense` sequence. The payload type is abstract.
 */
module ComponentPools {
  import opened Entities
  import opened Options
  import SS = SparseSets

  datatype ComponentPool<V> = ComponentPool(entities: SS.SparseSet, components: seq<V>)

  function Empty<V>(): (p: ComponentPool<V>)
    ensures forall e :: !Contains(p, e)
    ensures Valid(p)
  {
    ComponentPool(SS.Empty, [])
  }

  function Size<V>(p: ComponentPool<V>): (n: nat) {
    SS.Size(p.entities)
  }

  predicate Contains<V>(p: ComponentPool<V>, e: Entity) {
    SS.Contains(p.entities, e)
  }

  /** One payload per dense handle: `components[k]` belongs to `dense[k]`. */
  predicate Lockstep<V>(p: ComponentPool<V>) {
    |p.components| == SS.Size(p.entities)
  }

  /** A consistent sparse set with its payloads in lockstep. */
  ghost predicate Valid<V>(p: ComponentPool<V>) {
    SS.WF(p.entities) && Lockstep(p)
  }

  /** `add(e, v)`: the base add, then the payload appended at the new dense end. */
  function Add<V>(p: ComponentPool<V>, e: Entity, v: V): (r: ComponentPool<V>)
    ensures r.entities == SS.Add(p.entities, e)
    ensures |r.components| == |p.components| + 1
    ensures r.components[|r.components| - 1] == v
    ensures forall k :: 0 <= k < |p.components| ==> r.components[k] == p.components[k]
    ensures Lockstep(p) ==> Lockstep(r)
  {
    ComponentPool(SS.Add(p.entities, e), p.components + [v])
  }

  /** What the `on_swap` override needs: a payload to drop, and a valid `a` whenever `b` is valid. */
  predicate OnSwapDefined<V>(components: seq<V>, a: U32, b: U32) {
    |components| > 0 && (b < |components| ==> a < |components|)
  }

  /**
    The `on_swap(a, b)` override: exchange the payloads at `a` and `b` when both
    are valid, then drop the last payload. With `a` valid and `b` the last
    position, the payload of `b` ends up at `a`.
   */
  function OnSwap<V>(components: seq<V>, a: U32, b: U32): (r: seq<V>)
    requires OnSwapDefined(components, a, b)
    ensures |r| == |components| - 1
    ensures b == |components| - 1 && a < b ==> r[a] == components[b]
    ensures b == |components| - 1 ==> forall k :: 0 <= k < |r| && k != a ==> r[k] == components[k]
  {
    var n := |components|;
    if a < n && b < n then
      components[a := components[b]][b := components[a]][..n - 1]
    else
      // Here b is past the end: the source's middle case (a past the end,
      // b valid) would write outside the payloads and is excluded above.
      components[..n - 1]
  }

  /** What `remove(e)` needs: a defined base removal, and a defined hook call. */
  predicate RemoveDefined<V>(p: ComponentPool<V>, e: Entity) {
    Contains(p, e) ==>
      && SS.RemoveDefined(p.entities, e)
      && var rem := SS.Remove(p.entities, e);
         (rem.hook.Some? ==> OnSwapDefined(p.components, rem.hook.value.a, rem.hook.value.b))
  }

  /**
    `remove(e)`: nothing unless `e` itself is present; otherwise the base
    swap-removal and the hook it calls, as one step.
   */
  function Remove<V>(p: ComponentPool<V>, e: Entity): (r: ComponentPool<V>)
    requires RemoveDefined(p, e)
    ensures !Contains(p, e) ==> r == p
    ensures Lockstep(p) ==> Lockstep(r)
  {
    if !Contains(p, e) then p
    else
      var rem := SS.Remove(p.entities, e);
      match rem.hook
      case None => ComponentPool(rem.after, p.components)
      case Some(swap) => ComponentPool(rem.after, OnSwap(p.components, swap.a, swap.b))
  }

  /** What `get(e)` needs: the slot exists and addresses a payload. */
  predicate GetDefined<V>(p: ComponentPool<V>, e: Entity) {
    Index(e) < |p.entities.sparse| && SS.DenseIndex(p.entities, e) < |p.components|
  }

  /** `get(e)`: the payload that belongs to `e`. */
  function Get<V>(p: ComponentPool<V>, e: Entity): (v: V)
    requires GetDefined(p, e)
    ensures Valid(p) ==> forall k :: 0 <= k < Size(p) && p.entities.dense[k] == e ==> v == p.components[k]
  {
    p.components[SS.DenseIndex(p.entities, e)]
  }

  /** `try_get(e)`: absent exactly when `e` is not present. */
  function TryGet<V>(p: ComponentPool<V>, e: Entity): (r: Option<V>)
    requires Contains(p, e) ==> GetDefined(p, e)
    ensures r.None? <==> !Contains(p, e)
    ensures r.Some? ==> r.value == Get(p, e)
  {
    if !Contains(p, e) then None else Some(p.components[SS.DenseIndex(p.entities, e)])
  }

  // ---------------------------------------------------------------------
  // Properties of a valid pool

  /** With payloads in lockstep, every present handle's payload is readable. */
  lemma LockstepGetDefined<V>(p: ComponentPool<V>, e: Entity)
    requires Lockstep(p)
    requires Contains(p, e)
    ensures GetDefined(p, e)
  {
  }

  /** In a valid pool, removal of any handle is defined. */
  lemma ValidRemoveDefined<V>(p: ComponentPool<V>, e: Entity)
    requires Valid(p)
    ensures RemoveDefined(p, e)
  {
    if Contains(p, e) {
      SS.WFRemoveDefined(p.entities, e);
      SS.DenseBound(p.entities);
    }
  }

  /** Adding a handle whose slot is free keeps the pool valid, makes `e` read back
      as `v`, and leaves every other present handle and its payload alone. */
  lemma AddThenGet<V>(p: ComponentPool<V>, e: Entity, v: V)
    requires Valid(p)
    requires SS.IndexFree(p.entities, e)
    ensures Valid(Add(p, e, v))
    ensures Contains(Add(p, e, v), e)
    ensures GetDefined(Add(p, e, v), e) && Get(Add(p, e, v), e) == v
    ensures Size(Add(p, e, v)) == Size(p) + 1
    ensures forall x :: Contains(Add(p, e, v), x) <==> Contains(p, x) || x == e
    ensures forall x :: Contains(p, x) ==>
              GetDefined(p, x) && GetDefined(Add(p, e, v), x) && Get(Add(p, e, v), x) == Get(p, x)
  {
    var r := Add(p, e, v);
    SS.AddPreservesWF(p.entities, e);
    SS.DenseBound(r.entities);
    assert r.entities.dense[Size(p)] == e;
    forall x | Contains(p, x)
      ensures GetDefined(p, x) && GetDefined(r, x) && Get(r, x) == Get(p, x)
    {
      var k := SS.DenseIndex(p.entities, x);
      assert r.entities.dense[k] == x;
    }
  }

  /** Removal keeps the pool valid, removes exactly `e`, and every other present
      handle keeps its payload, because the hook mirrors the dense swap. */
  lemma RemoveKeepsOthers<V>(p: ComponentPool<V>, e: Entity)
    requires Valid(p)
    ensures RemoveDefined(p, e)
    ensures Valid(Remove(p, e))
    ensures !Contains(Remove(p, e), e)
    ensures Size(Remove(p, e)) == if Contains(p, e) then Size(p) - 1 else Size(p)
    ensures forall x :: x != e ==> (Contains(Remove(p, e), x) <==> Contains(p, x))
    ensures forall x :: x != e && Contains(p, x) ==>
              GetDefined(p, x) && GetDefined(Remove(p, e), x) && Get(Remove(p, e), x) == Get(p, x)
  {
    ValidRemoveDefined(p, e);
    if Contains(p, e) {
      var s := p.entities;
      var r := Remove(p, e);
      var n := Size(p);
      SS.DenseBound(s);
      SS.RemovePreservesWF(s, e);
      var d := SS.DenseIndex(s, e);
      assert s.dense[d] == e;
      assert !SS.IndexFree(s, e);
      forall x | x != e
        ensures Contains(r, x) <==> Contains(p, x)
      {
        if Index(x) == Index(e) {
          assert s.dense[s.sparse[Index(e)]] == e;
        }
      }
      RemoveKeepsPayloads(p, e);
    }
  }

  /** The payload half of the above, for a present handle. */
  lemma RemoveKeepsPayloads<V>(p: ComponentPool<V>, e: Entity)
    requires Valid(p) && Contains(p, e)
    requires RemoveDefined(p, e)
    requires SS.WF(Remove(p, e).entities)
    ensures forall x :: x != e && Contains(p, x) ==>
              GetDefined(p, x) && GetDefined(Remove(p, e), x) && Get(Remove(p, e), x) == Get(p, x)
  {
    var s := p.entities;
    var r := Remove(p, e);
    var n := Size(p);
    var d := SS.DenseIndex(s, e);
    SS.DenseBound(s);
    forall x | x != e && Contains(p, x)
      ensures GetDefined(p, x) && GetDefined(r, x) && Get(r, x) == Get(p, x)
    {
      var k := SS.DenseIndex(s, x);
      assert k != d;
      if k == n - 1 {
        assert r.entities.dense[d] == x;
        assert r.components[d] == p.components[k];
      } else {
        assert r.entities.dense[k] == x;
        assert r.components[k] == p.components[k];
      }
    }
  }

  /** Removing the handle in the last position just drops the last payload. */
  lemma RemoveLastDropsLast<V>(p: ComponentPool<V>, e: Entity)
    requires Valid(p)
    requires Size(p) > 0 && p.entities.dense[Size(p) - 1] == e
    ensures RemoveDefined(p, e)
    ensures Remove(p, e).components == p.components[..Size(p) - 1]
    ensures Remove(p, e).entities.dense == p.entities.dense[..Size(p) - 1]
  {
    ValidRemoveDefined(p, e);
    SS.ContainsIsMembership(p.entities, e);
    SS.ContainsLocates(p.entities, e);
    SS.RemovePreservesWF(p.entities, e);
  }

  /** A second removal of the same handle changes nothing. */
  lemma RemoveIdempotent<V>(p: ComponentPool<V>, e: Entity)
    requires Valid(p)
    ensures RemoveDefined(p, e)
    ensures RemoveDefined(Remove(p, e), e)
    ensures Remove(Remove(p, e), e) == Remove(p, e)
  {
    RemoveKeepsOthers(p, e);
    ValidRemoveDefined(Remove(p, e), e);
  }

  /** `get` reads only the slot: a stale handle sharing a present handle's
      slot is not contained, yet its read is in range and yields the present
      handle's payload. */
  lemma StaleGetReadsPresent<V>(p: ComponentPool<V>, present: Entity, stale: Entity)
    requires Valid(p)
    requires Contains(p, present)
    requires Index(stale) == Index(present) && stale != present
    ensures !Contains(p, stale)
    ensures GetDefined(p, stale) && Get(p, stale) == Get(p, present)
  {
    SS.ContainsLocates(p.entities, present);
  }

  /** A stale handle (same slot, other generation) does not touch the pool. */
  lemma RemoveStaleIsNoOp<V>(p: ComponentPool<V>, present: Entity, stale: Entity)
    requires Valid(p)
    requires Contains(p, present)
    requires Index(stale) == Index(present) && stale != present
    ensures RemoveDefined(p, stale)
    ensures Remove(p, stale) == p
  {
    ValidRemoveDefined(p, stale);
    SS.ContainsLocates(p.entities, present);
  }
}

=== FILE: entity.dfy ===
/**
  Entity handles: an unsigned 32-bit value whose low 20 bits are a slot index
  and whose high 12 bits are a generation counter for that slot.

  Unsigned 32-bit values are integers in [0, 2^32). The bit operations of the
  handle layout are written out arithmetically: masking with 2^n - 1 keeps the
  remainder modulo 2^n, shifting right by n divides by 2^n, shifting left by n
  multiplies by 2^n and drops what passes bit 31, and `|` is the bitwise OR.
 */
module Entities {

  /** Unsigned 32-bit integers. */
  type U32 = x: int | 0 <= x < 0x1_0000_0000

  type Entity = U32

  const INDEX_BITS: nat := 20
  const GEN_BITS: nat := 12
  /** 1 << INDEX_BITS: the number of slot indices a handle can name. */
  const INDEX_SPACE: nat := 0x10_0000
  /** 1 << GEN_BITS: the period of a slot's generation counter. */
  const GEN_SPACE: nat := 0x1000
  const U32_SPACE: nat := 0x1_0000_0000
  const INDEX_MASK: U32 := INDEX_SPACE - 1
  const GEN_MASK: U32 := GEN_SPACE - 1
  const MAX_INDEX: U32 := INDEX_MASK
  const MAX_GEN: U32 := GEN_MASK

  /** The "no entity" sentinel: the largest 32-bit value. */
  const NULL: Entity := 0xFFFF_FFFF

  function Pow2(n: nat): (p: nat)
    ensures p >= 1
  {
    if n == 0 then 1 else 2 * Pow2(n - 1)
  }

  /** The named widths are the powers of two used above, and they fill 32 bits. */
  lemma Widths()
    ensures Pow2(INDEX_BITS) == INDEX_SPACE
    ensures Pow2(GEN_BITS) == GEN_SPACE
    ensures Pow2(INDEX_BITS + GEN_BITS) == U32_SPACE
    ensures INDEX_SPACE * GEN_SPACE == U32_SPACE
  {
    assert Pow2(4) == 16;
    assert Pow2(8) == 256;
    assert Pow2(12) == 4096;
    assert Pow2(16) == 65536;
    assert Pow2(20) == INDEX_SPACE;
    assert Pow2(24) == 0x100_0000;
    assert Pow2(28) == 0x1000_0000;
  }

  /** Bitwise OR of two naturals. */
  function BitOr(x: nat, y: nat): (z: nat)
    decreases x + y
  {
    if x == 0 then y
    else if y == 0 then x
    else 2 * BitOr(x / 2, y / 2) + (if x % 2 == 1 || y % 2 == 1 then 1 else 0)
  }

  /** OR never sets a bit above the operands' width. */
  lemma {:induction false} BitOrBound(x: nat, y: nat, k: nat)
    requires x < Pow2(k) && y < Pow2(k)
    ensures BitOr(x, y) < Pow2(k)
    decreases k
  {
    if x != 0 && y != 0 {
      BitOrBound(x / 2, y / 2, k - 1);
    }
  }

  /** OR of a multiple of 2^k with a value below 2^k is their sum. */
  lemma {:induction false} BitOrDisjoint(q: nat, y: nat, k: nat)
    requires y < Pow2(k)
    ensures BitOr(q * Pow2(k), y) == q * Pow2(k) + y
    decreases k
  {
    var x := q * Pow2(k);
    if x != 0 && y != 0 {
      var p := Pow2(k - 1);
      assert x == 2 * (q * p) by {
        assert Pow2(k) == 2 * p;
      }
      assert x / 2 == q * p && x % 2 == 0;
      BitOrDisjoint(q, y / 2, k - 1);
    }
  }

  /** `e & INDEX_MASK` */
  function Index(e: Entity): (i: U32)
    ensures i <= MAX_INDEX
  {
    e % INDEX_SPACE
  }

  /** `(e >> INDEX_BITS) & GEN_MASK` */
  function Generation(e: Entity): (g: U32)
    ensures g <= MAX_GEN
  {
    (e / INDEX_SPACE) % GEN_SPACE
  }

  /** `gen << INDEX_BITS` on 32 bits: the generation's bits above bit 11 are lost. */
  function ShiftToGeneration(gen: U32): (r: U32)
    ensures r == (gen % GEN_SPACE) * INDEX_SPACE
  {
    (gen * INDEX_SPACE) % U32_SPACE
  }

  /** `(gen << INDEX_BITS) | index` */
  function Make(index: U32, gen: U32): (e: Entity)
    ensures index <= MAX_INDEX ==> Index(e) == index
    ensures index <= MAX_INDEX ==> Generation(e) == gen % GEN_SPACE
    ensures index <= MAX_INDEX && gen <= MAX_GEN ==> Generation(e) == gen
  {
    ShiftOr(index, gen);
    BitOr(ShiftToGeneration(gen), index)
  }

  /** The OR stays within 32 bits, and with an in-range index it is a sum. */
  lemma ShiftOr(index: U32, gen: U32)
    ensures BitOr(ShiftToGeneration(gen), index) < U32_SPACE
    ensures index <= MAX_INDEX ==>
              BitOr(ShiftToGeneration(gen), index) == (gen % GEN_SPACE) * INDEX_SPACE + index
    ensures index <= MAX_INDEX ==>
              && Index(BitOr(ShiftToGeneration(gen), index)) == index
              && Generation(BitOr(ShiftToGeneration(gen), index)) == gen % GEN_SPACE
  {
    var hi := ShiftToGeneration(gen);
    var g := gen % GEN_SPACE;
    Widths();
    BitOrBound(hi, index, INDEX_BITS + GEN_BITS);
    if index <= MAX_INDEX {
      BitOrDisjoint(g, index, INDEX_BITS);
      Fields(g, index);
    }
  }

  /** Reading the fields back from a value laid out as generation above index. */
  lemma Fields(g: nat, i: nat)
    requires g < GEN_SPACE && i < INDEX_SPACE
    ensures g * INDEX_SPACE + i < U32_SPACE
    ensures Index(g * INDEX_SPACE + i) == i
    ensures Generation(g * INDEX_SPACE + i) == g
  {
    var x := g * INDEX_SPACE + i;
    assert x / INDEX_SPACE == g;
  }

  /** A handle with an in-range index is its generation field above its index field. */
  lemma MakeLayout(index: U32, gen: U32)
    requires index <= MAX_INDEX
    ensures Make(index, gen) == (gen % GEN_SPACE) * INDEX_SPACE + index
  {
    Widths();
    BitOrDisjoint(gen % GEN_SPACE, index, INDEX_BITS);
  }

  /** The two fields cover all 32 bits, so every handle is rebuilt from them. */
  lemma MakeRoundTrip(e: Entity)
    ensures Make(Index(e), Generation(e)) == e
  {
    MakeLayout(Index(e), Generation(e));
  }

  /** Two handles are equal exactly when both fields are. */
  lemma HandleEquality(e1: Entity, e2: Entity)
    ensures e1 == e2 <==> Index(e1) == Index(e2) && Generation(e1) == Generation(e2)
  {
    MakeRoundTrip(e1);
    MakeRoundTrip(e2);
  }

  /** The sentinel is the handle whose fields are both at their maximum. */
  lemma NullIsMaximalHandle()
    ensures NULL == Make(MAX_INDEX, MAX_GEN)
    ensures Index(NULL) == MAX_INDEX && Generation(NULL) == MAX_GEN
  {
    MakeLayout(MAX_INDEX, MAX_GEN);
  }
}

=== FILE: options.dfy ===
/** The optional result used where the library returns a null pointer. */
module Options {

  datatype Option<+T> = None | Some(value: T)
}

=== FILE: registry.dfy ===
/**
  The registry: entity creation and destruction over a generation table and a
  LIFO free list, and routing of component operations to one pool per
  component type. Pools are created on first use and live until `clear`.
 */
module Registries {
  import opened Entities
  import opened Options
  import opened Sequences
  import SS = SparseSets
  import CP = ComponentPools
  import VW = Views

  /** The stable identifier the library assigns to each component type. */
  type TypeKey = nat

  /** `size_t`: the live counter's type. */
  const USIZE_SPACE: nat := 0x1_0000_0000_0000_0000
  type USize = x: int | 0 <= x < USIZE_SPACE

  datatype Registry<V> = Registry(
    pools: map<TypeKey, CP.ComponentPool<V>>,
    generations: seq<U32>,
    freeList: seq<U32>,
    aliveCount: USize)

  function Empty<V>(): (r: Registry<V>)
    ensures Valid(r)
  {
    Registry(map[], [], [], 0)
  }

  /**
    What the registry maintains: consistent pools, at most 2^20 slots, stored
    generations within 12 bits, a free list of distinct existing slots, and a
    live count equal to the number of slots not on the free list.
   */
  ghost predicate Valid<V>(r: Registry<V>) {
    PoolsValid(r) && SlotsValid(r)
  }

  ghost predicate PoolsValid<V>(r: Registry<V>) {
    forall k :: k in r.pools ==> CP.Valid(r.pools[k])
  }

  ghost predicate SlotsValid<V>(r: Registry<V>) {
    && |r.generations| <= INDEX_SPACE
    && (forall i :: 0 <= i < |r.generations| ==> r.generations[i] <= MAX_GEN)
    && (forall i :: 0 <= i < |r.freeList| ==> r.freeList[i] < |r.generations|)
    && Distinct(r.freeList)
    && r.aliveCount + |r.freeList| == |r.generations|
  }

  /** `size()` */
  function Size<V>(r: Registry<V>): (n: nat)
    ensures Valid(r) ==> n + |r.freeList| == |r.generations|
  {
    r.aliveCount
  }

  /** `in_free_list(idx)`: a linear scan of the free list. */
  method InFreeList<V>(r: Registry<V>, idx: U32) returns (found: bool)
    ensures found <==> idx in r.freeList
  {
    var i := 0;
    while i < |r.freeList|
      invariant 0 <= i <= |r.freeList|
      invariant idx !in r.freeList[..i]
    {
      if r.freeList[i] == idx {
        return true;
      }
      i := i + 1;
    }
    assert r.freeList[..i] == r.freeList;
    return false;
  }

  /** `alive(e)`: the slot exists, its generation matches, and it is not free. */
  function Alive<V>(r: Registry<V>, e: Entity): (b: bool)
    ensures b ==> Index(e) < |r.generations| && Index(e) !in r.freeList
    ensures Index(e) < |r.generations| && r.generations[Index(e)] <= MAX_GEN ==>
              (b <==> Index(e) !in r.freeList && e == Make(Index(e), r.generations[Index(e)]))
  {
    MakeRoundTrip(e);
    var idx := Index(e);
    idx < |r.generations| && Generation(e) == r.generations[idx] && idx !in r.freeList
  }

  /** What `create` needs: a recycled index names an existing slot, and a new
      index still fits in 20 bits (the library does not check the latter). */
  predicate CreateDefined<V>(r: Registry<V>) {
    if |r.freeList| > 0 then r.freeList[|r.freeList| - 1] < |r.generations|
    else |r.generations| <= MAX_INDEX
  }

  /** `create()`: reuse the most recently freed slot with its stored generation,
      or else append a slot with generation 0. */
  function Create<V>(r: Registry<V>): (res: (Registry<V>, Entity))
    requires CreateDefined(r)
    ensures res.0.pools == r.pools
    ensures |r.freeList| == 0 ==>
              && res.1 == Make(|r.generations|, 0)
              && Index(res.1) == |r.generations| && Generation(res.1) == 0
              && res.0.generations == r.generations + [0]
              && res.0.freeList == []
    ensures |r.freeList| > 0 ==>
              var idx := r.freeList[|r.freeList| - 1];
              && res.1 == Make(idx, r.generations[idx])
              && res.0.generations == r.generations
              && res.0.freeList == r.freeList[..|r.freeList| - 1]
    ensures res.0.aliveCount == (r.aliveCount + 1) % USIZE_SPACE
  {
    var count := (r.aliveCount + 1) % USIZE_SPACE;
    if |r.freeList| > 0 then
      var idx := r.freeList[|r.freeList| - 1];
      (Registry(r.pools, r.generations, r.freeList[..|r.freeList| - 1], count), Make(idx, r.generations[idx]))
    else
      var idx := |r.generations|;
      (Registry(r.pools, r.generations + [0], r.freeList, count), Make(idx, 0))
  }

  /** What `destroy(e)` needs: every pool can run its removal for `e`. */
  predicate DestroyDefined<V>(r: Registry<V>, e: Entity) {
    Alive(r, e) ==> forall k :: k in r.pools ==> CP.RemoveDefined(r.pools[k], e)
  }

  /** The pool loop of `destroy`: every pool that holds `e` runs the handle
      removal, whose swap hook is the pool's own, so the payloads follow. That
      is the pool's `remove`, which makes the same `contains` test. */
  function RemoveFromAll<V>(pools: map<TypeKey, CP.ComponentPool<V>>, e: Entity): (r: map<TypeKey, CP.ComponentPool<V>>)
    requires forall k :: k in pools ==> CP.RemoveDefined(pools[k], e)
    ensures r.Keys == pools.Keys
    ensures forall k :: k in pools ==> r[k] == CP.Remove(pools[k], e)
  {
    map k | k in pools :: CP.Remove(pools[k], e)
  }

  /** `(generations_[idx] + 1) & MAX_GEN` on 32 bits. */
  function NextGeneration(g: U32): (n: U32)
    ensures g <= MAX_GEN ==> n == (g + 1) % GEN_SPACE && n != g
  {
    ((g + 1) % U32_SPACE) % GEN_SPACE
  }

  /**
    `destroy(e)`: nothing for a handle that is not alive; otherwise remove it
    from every pool that holds it, advance the slot's generation, and push the
    slot on the free list.
   */
  function Destroy<V>(r: Registry<V>, e: Entity): (r': Registry<V>)
    requires DestroyDefined(r, e)
    ensures !Alive(r, e) ==> r' == r
    ensures Alive(r, e) ==>
              && r'.pools == RemoveFromAll(r.pools, e)
              && r'.generations == r.generations[Index(e) := NextGeneration(r.generations[Index(e)])]
              && r'.freeList == r.freeList + [Index(e)]
              && r'.aliveCount == (r.aliveCount - 1) % USIZE_SPACE
  {
    if !Alive(r, e) then r
    else
      var idx := Index(e);
      var gens := r.generations[idx := NextGeneration(r.generations[idx])];
      Registry(RemoveFromAll(r.pools, e), gens, r.freeList + [idx], (r.aliveCount - 1) % USIZE_SPACE)
  }

  /** `has<T>(e)`: false, without creating a pool, when the type has none. */
  function Has<V>(r: Registry<V>, k: TypeKey, e: Entity): (b: bool)
    ensures b ==> k in r.pools && e in r.pools[k].entities.dense
    ensures PoolsValid(r) ==> (b <==> k in r.pools && e in r.pools[k].entities.dense)
  {
    k in r.pools && (SS.MemberIsContained(r.pools[k].entities, e); CP.Contains(r.pools[k], e))
  }

  /** `try_pool<T>()`: the type's pool, if it has one. */
  function TryPool<V>(r: Registry<V>, k: TypeKey): (p: Option<CP.ComponentPool<V>>)
    ensures p.None? <==> k !in r.pools
    ensures p.Some? ==> p.value == r.pools[k]
  {
    if k in r.pools then Some(r.pools[k]) else None
  }

  /** The pool `pool<T>()` hands out: the existing one or a fresh empty one. */
  function PoolOrEmpty<V>(r: Registry<V>, k: TypeKey): (p: CP.ComponentPool<V>) {
    if k in r.pools then r.pools[k] else CP.Empty()
  }

  /** `pool<T>()`: the type's pool, created empty on first use. */
  function Pool<V>(r: Registry<V>, k: TypeKey): (res: (Registry<V>, CP.ComponentPool<V>))
    ensures k in res.0.pools && res.0.pools[k] == res.1
    ensures k in r.pools ==> res.0 == r
    ensures k !in r.pools ==> res.0 == r.(pools := r.pools[k := CP.Empty()]) && CP.Size(res.1) == 0
    ensures Valid(r) ==> Valid(res.0)
  {
    if k in r.pools then (r, r.pools[k]) else (r.(pools := r.pools[k := CP.Empty()]), CP.Empty())
  }

  /** `add<T>(e, v)`: the pool is created if needed, then the handle is added with `v`. */
  function Add<V>(r: Registry<V>, k: TypeKey, e: Entity, v: V): (r': Registry<V>)
    ensures k in r'.pools && r'.pools[k] == CP.Add(PoolOrEmpty(r, k), e, v)
    ensures forall k' :: k' in r.pools && k' != k ==> k' in r'.pools && r'.pools[k'] == r.pools[k']
    ensures r'.pools.Keys == r.pools.Keys + {k}
    ensures r'.generations == r.generations && r'.freeList == r.freeList && r'.aliveCount == r.aliveCount
  {
    r.(pools := r.pools[k := CP.Add(Pool(r, k).1, e, v)])
  }

  /** `remove<T>(e)`: nothing, and no pool created, when the type has no pool. */
  function Remove<V>(r: Registry<V>, k: TypeKey, e: Entity): (r': Registry<V>)
    requires k in r.pools ==> CP.RemoveDefined(r.pools[k], e)
    ensures k !in r.pools ==> r' == r
    ensures r'.pools.Keys == r.pools.Keys
    ensures k in r.pools ==> r'.pools[k] == CP.Remove(r.pools[k], e)
    ensures forall k' :: k' in r.pools && k' != k ==> r'.pools[k'] == r.pools[k']
    ensures r'.generations == r.generations && r'.freeList == r.freeList && r'.aliveCount == r.aliveCount
  {
    if k in r.pools then r.(pools := r.pools[k := CP.Remove(r.pools[k], e)]) else r
  }

  /** `get<T>(e)`: the payload; only defined when the handle has that component. */
  function Get<V>(r: Registry<V>, k: TypeKey, e: Entity): (v: V)
    requires CP.GetDefined(PoolOrEmpty(r, k), e)
    ensures k in r.pools
    ensures Valid(r) ==> forall i :: 0 <= i < CP.Size(r.pools[k]) && r.pools[k].entities.dense[i] == e ==>
              v == r.pools[k].components[i]
  {
    CP.Get(Pool(r, k).1, e)
  }

  /** `try_get<T>(e)`: absent, without creating a pool, unless the handle has that component. */
  function TryGet<V>(r: Registry<V>, k: TypeKey, e: Entity): (res: Option<V>)
    requires Has(r, k, e) ==> CP.GetDefined(r.pools[k], e)
    ensures res.None? <==> !Has(r, k, e)
    ensures res.Some? ==> res.value == Get(r, k, e)
  {
    if k in r.pools then CP.TryGet(r.pools[k], e) else None
  }

  /** Every pool of the requested types has its payloads in lockstep. */
  predicate PoolsInStep<V>(r: Registry<V>, ks: seq<TypeKey>) {
    forall j :: 0 <= j < |ks| && ks[j] in r.pools ==> CP.Lockstep(r.pools[ks[j]])
  }

  /** The registry with an empty pool for each requested type that lacks one. */
  function WithPools<V>(r: Registry<V>, ks: seq<TypeKey>): (r': Registry<V>)
    ensures forall j :: 0 <= j < |ks| ==> ks[j] in r'.pools
    ensures forall k :: k in r.pools ==> k in r'.pools && r'.pools[k] == r.pools[k]
    ensures forall k :: k in r'.pools && k !in r.pools ==> r'.pools[k] == CP.Empty()
    ensures r'.generations == r.generations && r'.freeList == r.freeList && r'.aliveCount == r.aliveCount
    ensures Valid(r) ==> Valid(r')
  {
    var added := map k | k in ks && k !in r.pools :: CP.Empty();
    r.(pools := r.pools + added)
  }

  /** `view<Ts...>()`: a view over the requested types' pools, creating missing ones. */
  function View<V>(r: Registry<V>, ks: seq<TypeKey>): (res: (Registry<V>, VW.View<V>))
    requires |ks| > 0
    ensures res.0 == WithPools(r, ks)
    ensures |res.1.pools| == |ks|
    ensures forall j :: 0 <= j < |ks| ==> res.1.pools[j] == res.0.pools[ks[j]]
    ensures res.1.driver < |ks|
    ensures forall j :: 0 <= j < |ks| ==> CP.Size(res.1.pools[res.1.driver]) <= CP.Size(res.1.pools[j])
    ensures forall j :: 0 <= j < res.1.driver ==> CP.Size(res.1.pools[j]) > CP.Size(res.1.pools[res.1.driver])
    ensures PoolsInStep(r, ks) ==> VW.Defined(res.1)
    ensures Valid(r) ==> Valid(res.0)
  {
    var r' := WithPools(r, ks);
    (r', VW.MakeView(seq(|ks|, j requires 0 <= j < |ks| => r'.pools[ks[j]])))
  }

  /** `each<Ts...>(f)`: the calls of the view's `each`. */
  function Each<V>(r: Registry<V>, ks: seq<TypeKey>): (res: (Registry<V>, seq<VW.Row<V>>))
    requires |ks| > 0
    requires PoolsInStep(r, ks)
    ensures res.0 == WithPools(r, ks)
    ensures Valid(r) ==> Valid(res.0)
    ensures forall i, j :: 0 <= i < |res.1| && 0 <= j < |ks| ==>
              && Has(res.0, ks[j], res.1[i].entity)
              && CP.GetDefined(PoolOrEmpty(res.0, ks[j]), res.1[i].entity)
              && |res.1[i].components| == |ks|
              && res.1[i].components[j] == Get(res.0, ks[j], res.1[i].entity)
  {
    var res := View(r, ks);
    (res.0, VW.Each(res.1))
  }

  /** `clear()`: drop every pool and all slot state. */
  function Clear<V>(r: Registry<V>): (r': Registry<V>)
    ensures Size(r') == 0 && r'.pools == map[]
    ensures forall e :: !Alive(r', e)
    ensures Valid(r')
  {
    Empty()
  }

  // ---------------------------------------------------------------------
  // Entity lifecycle

  /** `create` keeps the registry valid, returns a handle that was not alive
      and now is, keeps every alive handle alive, and adds one to the size. */
  lemma CreateMakesAlive<V>(r: Registry<V>)
    requires Valid(r) && CreateDefined(r)
    ensures Valid(Create(r).0)
    ensures !Alive(r, Create(r).1) && Alive(Create(r).0, Create(r).1)
    ensures forall x :: Alive(r, x) ==> Alive(Create(r).0, x)
    ensures Size(Create(r).0) == Size(r) + 1
  {
    assert Create(r).0.pools == r.pools;
    if |r.freeList| > 0 {
      CreateRecycled(r);
    } else {
      CreateAppended(r);
    }
  }

  /** The slot half of `create` when the free list has an entry. */
  lemma CreateRecycled<V>(r: Registry<V>)
    requires SlotsValid(r) && |r.freeList| > 0
    ensures CreateDefined(r)
    ensures SlotsValid(Create(r).0)
    ensures !Alive(r, Create(r).1) && Alive(Create(r).0, Create(r).1)
    ensures forall x :: Alive(r, x) ==> Alive(Create(r).0, x)
    ensures Size(Create(r).0) == Size(r) + 1
  {
    var n := |r.freeList|;
    var idx := r.freeList[n - 1];
    var rest := r.freeList[..n - 1];
    assert r.freeList == rest + [idx];
    assert idx !in rest;
    var r' := Create(r).0;
    assert r'.freeList == rest;
    forall x | Alive(r, x)
      ensures Alive(r', x)
    {
      assert Index(x) !in rest;
    }
  }

  /** The slot half of `create` when the free list is empty. */
  lemma CreateAppended<V>(r: Registry<V>)
    requires SlotsValid(r) && |r.freeList| == 0 && |r.generations| <= MAX_INDEX
    ensures CreateDefined(r)
    ensures SlotsValid(Create(r).0)
    ensures !Alive(r, Create(r).1) && Alive(Create(r).0, Create(r).1)
    ensures forall x :: Alive(r, x) ==> Alive(Create(r).0, x)
    ensures Size(Create(r).0) == Size(r) + 1
  {
  }

  /** `destroy` of an alive handle keeps the registry valid, makes the handle
      dead, strips it from every pool, leaves every other alive handle alive
      with its components, and takes one from the size. */
  lemma DestroyKills<V>(r: Registry<V>, e: Entity)
    requires Valid(r)
    requires Alive(r, e)
    ensures DestroyDefined(r, e)
    ensures Valid(Destroy(r, e))
    ensures !Alive(Destroy(r, e), e)
    ensures forall k :: k in r.pools ==> !Has(Destroy(r, e), k, e)
    ensures forall x :: Alive(r, x) && x != e ==> Alive(Destroy(r, e), x)
    ensures forall k, x :: x != e ==> (Has(Destroy(r, e), k, x) <==> Has(r, k, x))
    ensures Size(Destroy(r, e)) == Size(r) - 1
  {
    DestroyPools(r, e);
    DestroySlots(r, e);
  }

  /** The pool half of `destroy`: each pool stays valid and loses exactly `e`. */
  lemma DestroyPools<V>(r: Registry<V>, e: Entity)
    requires PoolsValid(r)
    requires Alive(r, e)
    ensures DestroyDefined(r, e)
    ensures PoolsValid(Destroy(r, e))
    ensures forall k :: k in r.pools ==> !Has(Destroy(r, e), k, e)
    ensures forall k, x :: x != e ==> (Has(Destroy(r, e), k, x) <==> Has(r, k, x))
  {
    forall k | k in r.pools
      ensures CP.RemoveDefined(r.pools[k], e)
    {
      CP.RemoveKeepsOthers(r.pools[k], e);
    }
    var r' := Destroy(r, e);
    forall k | k in r.pools
      ensures CP.Valid(r'.pools[k]) && !CP.Contains(r'.pools[k], e)
      ensures forall x :: x != e ==> (CP.Contains(r'.pools[k], x) <==> CP.Contains(r.pools[k], x))
    {
      CP.RemoveKeepsOthers(r.pools[k], e);
    }
  }

  /** The slot half of `destroy`: the table stays valid, `e` dies, every other
      alive handle survives, and the live count drops by one. */
  lemma DestroySlots<V>(r: Registry<V>, e: Entity)
    requires SlotsValid(r)
    requires Alive(r, e)
    requires DestroyDefined(r, e)
    ensures SlotsValid(Destroy(r, e))
    ensures !Alive(Destroy(r, e), e)
    ensures forall x :: Alive(r, x) && x != e ==> Alive(Destroy(r, e), x)
    ensures Size(Destroy(r, e)) == Size(r) - 1
  {
    var r' := Destroy(r, e);
    var idx := Index(e);
    assert Distinct(r.freeList + [idx]);
    DistinctBelowBound(r.freeList + [idx], |r.generations|);
    forall x | Alive(r, x) && x != e
      ensures Alive(r', x)
    {
      if Index(x) == idx {
        HandleEquality(x, e);
      }
    }
  }

  /** `destroy` of a handle that is not alive changes nothing. */
  lemma DestroyDeadIsNoOp<V>(r: Registry<V>, e: Entity)
    requires !Alive(r, e)
    ensures DestroyDefined(r, e)
    ensures Destroy(r, e) == r
  {
  }

  /** After `destroy(e)`, the next `create` reuses `e`'s slot with the next
      generation; the old handle stays dead and the new one is alive. */
  lemma DestroyThenCreateRecycles<V>(r: Registry<V>, e: Entity)
    requires Valid(r) && Alive(r, e)
    ensures DestroyDefined(r, e) && CreateDefined(Destroy(r, e))
    ensures Index(Create(Destroy(r, e)).1) == Index(e)
    ensures Generation(Create(Destroy(r, e)).1) == (Generation(e) + 1) % GEN_SPACE
    ensures Create(Destroy(r, e)).1 != e
    ensures !Alive(Create(Destroy(r, e)).0, e)
    ensures Alive(Create(Destroy(r, e)).0, Create(Destroy(r, e)).1)
  {
    DestroyKills(r, e);
    var r1 := Destroy(r, e);
    assert r1.freeList[|r1.freeList| - 1] == Index(e);
    CreateMakesAlive(r1);
  }

  /** The example of a recycled slot: e1 = (0, 0) is created and destroyed, the
      next handle is e2 = (0, 1); e1 is dead and e2 alive. */
  lemma RecycleExample<V>(r1: Registry<V>, e1: Entity, r2: Registry<V>, r3: Registry<V>, e2: Entity)
    requires (r1, e1) == Create(Empty<V>())
    requires r2 == Destroy(r1, e1)
    requires (r3, e2) == Create(r2)
    ensures e1 == 0 && Index(e1) == 0 && Generation(e1) == 0
    ensures e2 == INDEX_SPACE && Index(e2) == 0 && Generation(e2) == 1
    ensures !Alive(r3, e1) && Alive(r3, e2)
  {
    MakeLayout(0, 0);
    MakeLayout(0, 1);
    CreateMakesAlive(Empty<V>());
    DestroyThenCreateRecycles(r1, e1);
  }

  /** Every handle of `es` is alive. */
  predicate AllAlive<V>(r: Registry<V>, es: seq<Entity>) {
    forall i :: 0 <= i < |es| ==> Alive(r, es[i])
  }

  /** The slot indices of a sequence of handles. */
  function IndicesOf(es: seq<Entity>): (xs: seq<U32>)
    ensures |xs| == |es|
    ensures forall i :: 0 <= i < |es| ==> xs[i] == Index(es[i])
  {
    seq(|es|, i requires 0 <= i < |es| => Index(es[i]))
  }

  /** The generation table after one increment modulo 2^12 at each handle's
      slot, in order. */
  function Bumped(gens: seq<U32>, es: seq<Entity>): (g: seq<U32>)
    requires forall i :: 0 <= i < |es| ==> Index(es[i]) < |gens|
    ensures |g| == |gens|
    decreases |es|
  {
    if |es| == 0 then gens
    else Bumped(gens[Index(es[0]) := (Generation(es[0]) + 1) % GEN_SPACE], es[1..])
  }

  /** With the slots distinct, each handle's slot ends one generation on and
      the other slots keep theirs. */
  lemma {:induction false} BumpedSlots(gens: seq<U32>, es: seq<Entity>)
    requires forall i :: 0 <= i < |es| ==> Index(es[i]) < |gens|
    requires Distinct(IndicesOf(es))
    ensures forall i :: 0 <= i < |es| ==> Bumped(gens, es)[Index(es[i])] == (Generation(es[i]) + 1) % GEN_SPACE
    ensures forall k :: 0 <= k < |gens| && k !in IndicesOf(es) ==> Bumped(gens, es)[k] == gens[k]
    decreases |es|
  {
    if |es| > 0 {
      var idx := Index(es[0]);
      var tail := es[1..];
      var g1 := gens[idx := (Generation(es[0]) + 1) % GEN_SPACE];
      var xs := IndicesOf(es);
      assert IndicesOf(tail) == xs[1..];
      DistinctTail(xs);
      BumpedSlots(g1, tail);
      assert Bumped(gens, es) == Bumped(g1, tail);
      forall i | 0 < i < |es|
        ensures Bumped(gens, es)[Index(es[i])] == (Generation(es[i]) + 1) % GEN_SPACE
      {
        assert tail[i - 1] == es[i];
      }
      forall k | 0 <= k < |gens| && k !in xs
        ensures Bumped(gens, es)[k] == gens[k]
      {
        assert k != idx && k !in xs[1..];
      }
    }
  }

  /** Distinct live handles sit in distinct slots. */
  lemma AliveIndicesDistinct<V>(r: Registry<V>, es: seq<Entity>)
    requires AllAlive(r, es) && Distinct(es)
    ensures Distinct(IndicesOf(es))
  {
    forall k, l | 0 <= k < l < |es|
      ensures IndicesOf(es)[k] != IndicesOf(es)[l]
    {
      if Index(es[k]) == Index(es[l]) {
        AliveAtSlot(r, es[k], es[l]);
      }
    }
  }

  /** `destroy` called on each handle of `es` in turn. */
  function DestroyAll<V>(r: Registry<V>, es: seq<Entity>): (r': Registry<V>)
    requires Valid(r) && AllAlive(r, es) && Distinct(es)
    ensures Valid(r')
    decreases |es|
  {
    if |es| == 0 then r
    else
      DestroyFirst(r, es);
      DestroyAll(Destroy(r, es[0]), es[1..])
  }

  /** The batch's slots join the free list in order, and each slot's
      generation moves one on. */
  lemma {:induction false} DestroyAllSlots<V>(r: Registry<V>, es: seq<Entity>)
    requires Valid(r) && AllAlive(r, es) && Distinct(es)
    ensures forall i :: 0 <= i < |es| ==> Index(es[i]) < |r.generations|
    ensures DestroyAll(r, es).freeList == r.freeList + IndicesOf(es)
    ensures DestroyAll(r, es).generations == Bumped(r.generations, es)
    decreases |es|
  {
    if |es| > 0 {
      DestroyFirst(r, es);
      var r1 := Destroy(r, es[0]);
      DestroyAllSlots(r1, es[1..]);
      assert DestroyAll(r, es) == DestroyAll(r1, es[1..]);
      assert r1.freeList + IndicesOf(es[1..]) == r.freeList + ([Index(es[0])] + IndicesOf(es[1..]));
    }
  }

  /** Destroying the first of several distinct live handles leaves the others
      alive, since live handles never share a slot. */
  lemma DestroyFirst<V>(r: Registry<V>, es: seq<Entity>)
    requires Valid(r) && AllAlive(r, es) && Distinct(es) && |es| > 0
    ensures DestroyDefined(r, es[0]) && Valid(Destroy(r, es[0]))
    ensures AllAlive(Destroy(r, es[0]), es[1..]) && Distinct(es[1..])
    ensures Size(Destroy(r, es[0])) == Size(r) - 1
    ensures Destroy(r, es[0]).freeList == r.freeList + [Index(es[0])]
    ensures Destroy(r, es[0]).generations == r.generations[Index(es[0]) := (Generation(es[0]) + 1) % GEN_SPACE]
    ensures IndicesOf(es) == [Index(es[0])] + IndicesOf(es[1..])
  {
    DestroyKills(r, es[0]);
    var tail := es[1..];
    forall i | 0 <= i < |tail|
      ensures Alive(Destroy(r, es[0]), tail[i])
    {
      assert tail[i] == es[i + 1] && es[0] != es[i + 1];
    }
    assert IndicesOf(es) == [Index(es[0])] + IndicesOf(tail);
  }

  /** `create` called `n` times while the free list holds at least `n`
      slots; the handles come in creation order, the i-th from the i-th
      slot counted from the free list's end, with that slot's generation. */
  function CreateN<V>(r: Registry<V>, n: nat): (res: (Registry<V>, seq<Entity>))
    requires n <= |r.freeList|
    requires forall i :: 0 <= i < |r.freeList| ==> r.freeList[i] < |r.generations|
    ensures |res.1| == n
    ensures res.0.pools == r.pools && res.0.generations == r.generations
    ensures res.0.freeList == r.freeList[..|r.freeList| - n]
    ensures forall i :: 0 <= i < n ==>
              var idx := r.freeList[|r.freeList| - 1 - i];
              res.1[i] == Make(idx, r.generations[idx])
    decreases n
  {
    if n == 0 then (r, [])
    else
      var c := Create(r);
      var rest := CreateN(c.0, n - 1);
      (rest.0, [c.1] + rest.1)
  }

  /** The creates keep the registry valid and add `n` live handles. */
  lemma {:induction false} CreateNValid<V>(r: Registry<V>, n: nat)
    requires Valid(r) && n <= |r.freeList|
    ensures Valid(CreateN(r, n).0)
    ensures Size(CreateN(r, n).0) == Size(r) + n
    decreases n
  {
    if n > 0 {
      CreateMakesAlive(r);
      var c := Create(r);
      CreateNValid(c.0, n - 1);
      assert CreateN(r, n).0 == CreateN(c.0, n - 1).0;
    }
  }

  /** Every handle the creates return is alive afterwards. */
  lemma CreateNAlive<V>(r: Registry<V>, n: nat)
    requires Valid(r) && n <= |r.freeList|
    ensures forall i :: 0 <= i < n ==> Alive(CreateN(r, n).0, CreateN(r, n).1[i])
  {
    var res := CreateN(r, n);
    var fl := r.freeList;
    forall i | 0 <= i < n
      ensures Alive(res.0, res.1[i])
    {
      var idx := fl[|fl| - 1 - i];
      assert idx !in fl[..|fl| - n] by {
        forall k | 0 <= k < |fl| - n
          ensures fl[k] != idx
        {
          assert k < |fl| - 1 - i;
        }
      }
    }
  }

  /**
    Destroying a batch of live handles and then creating as many hands the
    freed slots back last in, first out: the i-th new handle reuses the slot
    of the i-th handle from the end of the batch, one generation on. The free
    list is as before, the registry is valid, the new handles are alive and
    the old ones are not.
   */
  lemma DestroyAllThenCreateAll<V>(r: Registry<V>, es: seq<Entity>)
    requires Valid(r) && AllAlive(r, es) && Distinct(es)
    ensures |es| <= |DestroyAll(r, es).freeList|
    ensures var n := |es|;
            var res := CreateN(DestroyAll(r, es), n);
            && Valid(res.0)
            && res.0.freeList == r.freeList
            && (forall i :: 0 <= i < n ==>
                  && Index(res.1[i]) == Index(es[n - 1 - i])
                  && Generation(res.1[i]) == (Generation(es[n - 1 - i]) + 1) % GEN_SPACE)
            && (forall i :: 0 <= i < n ==> Alive(res.0, res.1[i]) && !Alive(res.0, es[i]))
  {
    var r1 := DestroyAll(r, es);
    DestroyAllSlots(r, es);
    AliveIndicesDistinct(r, es);
    BumpedSlots(r.generations, es);
    CreateNValid(r1, |es|);
    CreateNAlive(r1, |es|);
    CreateNReissues(r1, r.freeList, es);
    BumpedHandlesDead(CreateN(r1, |es|).0, es);
  }

  /** Popping a batch's slots off the free list hands them out in reverse,
      with the generations the slots now hold. */
  lemma CreateNReissues<V>(r: Registry<V>, base: seq<U32>, es: seq<Entity>)
    requires r.freeList == base + IndicesOf(es)
    requires forall i :: 0 <= i < |r.freeList| ==> r.freeList[i] < |r.generations|
    requires forall i :: 0 <= i < |es| ==>
               Index(es[i]) < |r.generations| && r.generations[Index(es[i])] == (Generation(es[i]) + 1) % GEN_SPACE
    ensures var n := |es|;
            var res := CreateN(r, n);
            && res.0.freeList == base
            && (forall i :: 0 <= i < n ==>
                  && Index(res.1[i]) == Index(es[n - 1 - i])
                  && Generation(res.1[i]) == (Generation(es[n - 1 - i]) + 1) % GEN_SPACE)
  {
    var n := |es|;
    var res := CreateN(r, n);
    assert r.freeList[..|r.freeList| - n] == base;
    forall i | 0 <= i < n
      ensures Index(res.1[i]) == Index(es[n - 1 - i])
      ensures Generation(res.1[i]) == (Generation(es[n - 1 - i]) + 1) % GEN_SPACE
    {
      var e := es[n - 1 - i];
      var idx := r.freeList[|r.freeList| - 1 - i];
      assert idx == IndicesOf(es)[n - 1 - i] == Index(e);
    }
  }

  /** A handle whose slot has moved one generation on is not alive. */
  lemma BumpedHandlesDead<V>(r: Registry<V>, es: seq<Entity>)
    requires forall i :: 0 <= i < |es| ==>
               Index(es[i]) < |r.generations| && r.generations[Index(es[i])] == (Generation(es[i]) + 1) % GEN_SPACE
    ensures forall i :: 0 <= i < |es| ==> !Alive(r, es[i])
  {
    forall i | 0 <= i < |es|
      ensures !Alive(r, es[i])
    {
      var g := Generation(es[i]);
      assert (g + 1) % GEN_SPACE != g;
    }
  }

  /** `n` rounds of destroying the handle and creating the next one, which
      each time lands on the same slot. */
  function Cycles<V>(r: Registry<V>, e: Entity, n: nat): (res: (Registry<V>, Entity))
    requires Valid(r) && Alive(r, e)
    ensures Valid(res.0) && Alive(res.0, res.1)
    ensures Index(res.1) == Index(e)
    ensures Generation(res.1) == GenerationAfter(Generation(e), n)
    decreases n
  {
    if n == 0 then (r, e)
    else
      var next := Round(r, e);
      Cycles(next.0, next.1, n - 1)
  }

  /** One destroy/create round keeps the registry valid and advances the slot's generation. */
  function Round<V>(r: Registry<V>, e: Entity): (res: (Registry<V>, Entity))
    requires Valid(r) && Alive(r, e)
    ensures DestroyDefined(r, e) && CreateDefined(Destroy(r, e))
    ensures res == Create(Destroy(r, e))
    ensures Valid(res.0) && Alive(res.0, res.1)
    ensures Index(res.1) == Index(e)
    ensures Generation(res.1) == (Generation(e) + 1) % GEN_SPACE
  {
    DestroyKills(r, e);
    DestroyThenCreateRecycles(r, e);
    CreateMakesAlive(Destroy(r, e));
    Create(Destroy(r, e))
  }

  /** A slot's generation after `n` destroys, one increment modulo 2^12 at a time. */
  function GenerationAfter(g: nat, n: nat): (h: nat)
    decreases n
  {
    if n == 0 then g else GenerationAfter((g + 1) % GEN_SPACE, n - 1)
  }

  /** `n` increments modulo 2^12 add `n` modulo 2^12. */
  lemma {:induction false} GenerationAfterIsSum(g: nat, n: nat)
    requires g < GEN_SPACE
    ensures GenerationAfter(g, n) == (g + n) % GEN_SPACE
    decreases n
  {
    if n > 0 {
      var g1 := (g + 1) % GEN_SPACE;
      GenerationAfterIsSum(g1, n - 1);
      var q := (g + 1) / GEN_SPACE;
      assert g + 1 == q * GEN_SPACE + g1;
      assert g + n == q * GEN_SPACE + (g1 + (n - 1));
    }
  }

  /** The generation counter wraps after 2^12 reuses of a slot: after `n`
      destroy/create rounds the original handle, which the first round
      destroyed, is alive again exactly when `n` is a multiple of 2^12. */
  lemma WraparoundRevives<V>(r: Registry<V>, e: Entity, n: nat)
    requires Valid(r) && Alive(r, e)
    ensures Cycles(r, e, n).1 == e <==> n % GEN_SPACE == 0
    ensures Alive(Cycles(r, e, n).0, e) <==> n % GEN_SPACE == 0
  {
    var res := Cycles(r, e, n);
    GenerationAfterIsSum(Generation(e), n);
    Period(Generation(e), n);
    assert Generation(res.1) == Generation(e) <==> n % GEN_SPACE == 0;
    HandleEquality(res.1, e);
    AliveAtSlot(res.0, res.1, e);
  }

  /** Adding `n` to a generation returns to it exactly after whole periods. */
  lemma Period(g: nat, n: nat)
    requires g < GEN_SPACE
    ensures (g + n) % GEN_SPACE == g <==> n % GEN_SPACE == 0
  {
    var q := (g + n) / GEN_SPACE;
    assert g + n == q * GEN_SPACE + (g + n) % GEN_SPACE;
  }

  /** At most one handle per slot is alive. */
  lemma AliveAtSlot<V>(r: Registry<V>, x: Entity, y: Entity)
    requires Alive(r, x) && Index(x) == Index(y)
    ensures Alive(r, y) <==> x == y
  {
    HandleEquality(x, y);
  }

  // ---------------------------------------------------------------------
  // Component routing

  /** Adding a component to a handle whose slot is free in that pool keeps the
      registry valid; the handle then has the component with that value. */
  lemma AddThenGet<V>(r: Registry<V>, k: TypeKey, e: Entity, v: V)
    requires Valid(r)
    requires SS.IndexFree(PoolOrEmpty(r, k).entities, e)
    ensures Valid(Add(r, k, e, v))
    ensures Has(Add(r, k, e, v), k, e)
    ensures CP.GetDefined(PoolOrEmpty(Add(r, k, e, v), k), e) && Get(Add(r, k, e, v), k, e) == v
    ensures forall k', x :: k' != k ==> (Has(Add(r, k, e, v), k', x) <==> Has(r, k', x))
  {
    var p := PoolOrEmpty(r, k);
    var r' := Add(r, k, e, v);
    CP.AddThenGet(p, e, v);
    assert r'.pools[k] == CP.Add(p, e, v);
    assert PoolsValid(r') by {
      forall k' | k' in r'.pools
        ensures CP.Valid(r'.pools[k'])
      {
        if k' != k {
          assert r'.pools[k'] == r.pools[k'];
        }
      }
    }
    assert Get(r', k, e) == CP.Get(CP.Add(p, e, v), e);
  }

  /** Removing a component keeps the registry valid and affects only that
      handle in that pool. */
  lemma RemoveThenHas<V>(r: Registry<V>, k: TypeKey, e: Entity)
    requires Valid(r)
    ensures k in r.pools ==> CP.RemoveDefined(r.pools[k], e)
    ensures Valid(Remove(r, k, e))
    ensures !Has(Remove(r, k, e), k, e)
    ensures forall k', x :: k' != k || x != e ==> (Has(Remove(r, k, e), k', x) <==> Has(r, k', x))
  {
    if k in r.pools {
      CP.ValidRemoveDefined(r.pools[k], e);
      CP.RemoveKeepsOthers(r.pools[k], e);
    }
  }

  /** Through the registry, `each` yields exactly the handles that have every
      requested component, each once. */
  lemma EachIsIntersection<V>(r: Registry<V>, ks: seq<TypeKey>)
    requires Valid(r) && |ks| > 0
    ensures PoolsInStep(r, ks)
    ensures forall e :: e in VW.EntitiesOf(Each(r, ks).1) <==> (forall j :: 0 <= j < |ks| ==> Has(r, ks[j], e))
    ensures Distinct(VW.EntitiesOf(Each(r, ks).1))
  {
    var v := View(r, ks).1;
    assert VW.AllValid(v.pools) by {
      forall j | 0 <= j < |v.pools|
        ensures CP.Valid(v.pools[j])
      {
        if ks[j] !in r.pools {
          assert v.pools[j] == CP.Empty<V>();
        }
      }
    }
    VW.EachIsIntersection(v);
    forall e
      ensures e in VW.EntitiesOf(Each(r, ks).1) <==> (forall j :: 0 <= j < |ks| ==> Has(r, ks[j], e))
    {
      ViewMembership(r, ks, e);
    }
  }

  /** A handle is in every pool of the view exactly when it has every requested component. */
  lemma ViewMembership<V>(r: Registry<V>, ks: seq<TypeKey>, e: Entity)
    requires Valid(r) && |ks| > 0
    requires PoolsInStep(r, ks)
    ensures (forall j :: 0 <= j < |ks| ==> e in View(r, ks).1.pools[j].entities.dense) <==>
            (forall j :: 0 <= j < |ks| ==> Has(r, ks[j], e))
  {
    var v := View(r, ks).1;
    forall j | 0 <= j < |ks|
      ensures e in v.pools[j].entities.dense <==> Has(r, ks[j], e)
    {
      SS.ContainsIsMembership(v.pools[j].entities, e);
    }
  }
}

=== FILE: sequences.dfy ===
/** Facts about sequences used by the containers. */
module Sequences {

  /** No element occurs twice. */
  ghost predicate Distinct<T>(s: seq<T>) {
    forall k, l :: 0 <= k < l < |s| ==> s[k] != s[l]
  }

  /** Pigeonhole: distinct naturals below n number at most n. */
  lemma {:induction false} DistinctBelowBound(xs: seq<int>, n: nat)
    requires forall k :: 0 <= k < |xs| ==> 0 <= xs[k] < n
    requires Distinct(xs)
    ensures |xs| <= n
    decreases n
  {
    if |xs| == 0 {
    } else if p :| 0 <= p < |xs| && xs[p] == n - 1 {
      var rest := xs[..p] + xs[p + 1..];
      assert forall k :: 0 <= k < |rest| ==> rest[k] == if k < p then xs[k] else xs[k + 1];
      assert forall k :: 0 <= k < |rest| ==> 0 <= rest[k] < n - 1;
      DistinctBelowBound(rest, n - 1);
    } else {
      assert 0 <= xs[0] < n;
      assert forall k :: 0 <= k < |xs| ==> 0 <= xs[k] < n - 1;
      DistinctBelowBound(xs, n - 1);
    }
  }

  /** In a distinct sequence every member occurs exactly once. */
  lemma {:induction false} DistinctMultiplicity<T>(s: seq<T>, x: T)
    requires Distinct(s)
    ensures multiset(s)[x] == if x in s then 1 else 0
  {
    if |s| > 0 {
      var init := s[..|s| - 1];
      assert s == init + [s[|s| - 1]];
      assert Distinct(init);
      DistinctMultiplicity(init, x);
      assert s[|s| - 1] !in init;
    }
  }

  /** Two distinct sequences with the same members are permutations of each other. */
  lemma SameMembersSameMultiset<T>(a: seq<T>, b: seq<T>)
    requires Distinct(a) && Distinct(b)
    requires forall x :: x in a <==> x in b
    ensures multiset(a) == multiset(b)
  {
    forall x
      ensures multiset(a)[x] == multiset(b)[x]
    {
      DistinctMultiplicity(a, x);
      DistinctMultiplicity(b, x);
    }
  }

  /** Dropping the head of a distinct sequence leaves it distinct and without the head. */
  lemma DistinctTail<T>(xs: seq<T>)
    requires Distinct(xs) && |xs| > 0
    ensures Distinct(xs[1..]) && xs[0] !in xs[1..]
  {
    forall l | 0 <= l < |xs| - 1
      ensures xs[1..][l] != xs[0]
    {
      assert xs[1..][l] == xs[l + 1];
    }
  }
}

=== FILE: sparse_set.dfy ===
/**
  The sparse set: `dense` lists the present handles, `sparse` maps a slot index
  to that handle's position in `dense`, or to NULL when the slot is empty.
 */
module SparseSets {
  import opened Entities
  import opened Options
  import opened Sequences

  datatype SparseSet = SparseSet(sparse: seq<U32>, dense: seq<Entity>)

  /** The arguments of one `on_swap(a, b)` call. */
  datatype Swap = Swap(a: U32, b: U32)

  /** A removal's new state together with the hook call it made, if any. */
  datatype Removal = Removal(after: SparseSet, hook: Option<Swap>)

  const Empty: SparseSet := SparseSet([], [])

  /** A size converted with `static_cast<uint32_t>`: reduced modulo 2^32. */
  function ToU32(n: nat): (r: U32)
    ensures n < U32_SPACE ==> r == n
  {
    n % U32_SPACE
  }

  /** `size()`: the number of present handles; under the invariant at most
      one per slot, so never more than the index space. */
  function Size(s: SparseSet): (n: nat)
    ensures WF(s) ==> n <= |s.sparse| <= INDEX_SPACE
  {
    SizeBound(s);
    |s.dense|
  }

  lemma SizeBound(s: SparseSet)
    ensures WF(s) ==> |s.dense| <= |s.sparse| <= INDEX_SPACE
  {
    if WF(s) {
      DenseBound(s);
    }
  }

  /** `empty()`: under the invariant, no handle is present. */
  function IsEmpty(s: SparseSet): (b: bool)
    ensures b ==> forall e :: !Contains(s, e)
    ensures !b ==> Size(s) > 0 && (WF(s) ==> Contains(s, s.dense[0]))
  {
    |s.dense| == 0
  }

  /**
    The consistency invariant: every dense entry is pointed at by its slot,
    and every non-NULL slot points at a dense entry with that slot's index.
    The slot table never grows past the index space.
   */
  ghost predicate WF(s: SparseSet) {
    && |s.sparse| <= INDEX_SPACE
    && (forall k :: 0 <= k < |s.dense| ==>
          Index(s.dense[k]) < |s.sparse| && s.sparse[Index(s.dense[k])] == k)
    && (forall i :: 0 <= i < |s.sparse| && s.sparse[i] != NULL ==>
          s.sparse[i] < |s.dense| && Index(s.dense[s.sparse[i]]) == i)
  }

  /** No present handle shares `e`'s slot index: the caller's condition for `add`. */
  ghost predicate IndexFree(s: SparseSet, e: Entity) {
    forall k :: 0 <= k < |s.dense| ==> Index(s.dense[k]) != Index(e)
  }

  /** `contains(e)`: the slot for `e`'s index points at `e` itself, so a
      handle is present only if `dense` lists it, whatever its generation. */
  function Contains(s: SparseSet, e: Entity): (b: bool)
    ensures b ==> e in s.dense && Index(e) < |s.sparse|
  {
    var idx := Index(e);
    idx < |s.sparse| && s.sparse[idx] < |s.dense| && s.dense[s.sparse[idx]] == e
  }

  /** `dense_index`: the slot's raw content; a position only for a present handle. */
  function DenseIndex(s: SparseSet, e: Entity): (d: U32)
    requires Index(e) < |s.sparse|
    ensures Contains(s, e) ==> d < |s.dense| && s.dense[d] == e
  {
    s.sparse[Index(e)]
  }

  /** Appends `e`, padding the slot table with NULL up to `e`'s index. */
  function Add(s: SparseSet, e: Entity): (r: SparseSet)
    ensures r.dense == s.dense + [e]
    ensures |r.sparse| == if Index(e) < |s.sparse| then |s.sparse| else Index(e) + 1
    ensures forall i :: 0 <= i < |r.sparse| && i != Index(e) ==>
              r.sparse[i] == if i < |s.sparse| then s.sparse[i] else NULL
    ensures r.sparse[Index(e)] == ToU32(Size(s))
    ensures Size(s) < NULL ==> Contains(r, e)
  {
    var idx := Index(e);
    var grown := if idx < |s.sparse| then s.sparse else s.sparse + seq(idx + 1 - |s.sparse|, _ => NULL);
    SparseSet(grown[idx := ToU32(|s.dense|)], s.dense + [e])
  }

  /**
    What `remove` needs to be defined: when the slot is occupied, it points
    into `dense`, and the last dense entry's slot is inside the table.
   */
  predicate RemoveDefined(s: SparseSet, e: Entity) {
    var idx := Index(e);
    idx < |s.sparse| && s.sparse[idx] != NULL ==>
      s.sparse[idx] < |s.dense| && Index(s.dense[|s.dense| - 1]) < |s.sparse|
  }

  /**
    Swap-removal keyed on the slot index alone: the last entry is moved into
    the vacated position, and the hook is told (vacated position, new size).
   */
  function Remove(s: SparseSet, e: Entity): (r: Removal)
    requires RemoveDefined(s, e)
    ensures r.hook.None? <==> Index(e) >= |s.sparse| || s.sparse[Index(e)] == NULL
    ensures r.hook.None? ==> r.after == s
    ensures r.hook.Some? ==>
              && Size(r.after) == Size(s) - 1
              && r.hook.value.a == s.sparse[Index(e)]
              && (Size(s) <= U32_SPACE ==> r.hook.value.b == Size(r.after))
              && (r.hook.value.a < Size(r.after) ==> r.after.dense[r.hook.value.a] == s.dense[Size(s) - 1])
              && (forall k :: 0 <= k < Size(r.after) && k != r.hook.value.a ==> r.after.dense[k] == s.dense[k])
    ensures |r.after.sparse| == |s.sparse|
  {
    var idx := Index(e);
    if idx >= |s.sparse| || s.sparse[idx] == NULL then
      Removal(s, None)
    else
      var d := s.sparse[idx];
      var last := s.dense[|s.dense| - 1];
      var dense := s.dense[d := last];
      var sparse := s.sparse[Index(last) := d];
      var shrunk := dense[..|dense| - 1];
      Removal(SparseSet(sparse[idx := NULL], shrunk), Some(Swap(d, ToU32(|shrunk|))))
  }

  // ---------------------------------------------------------------------
  // Consequences of the invariant

  /** Slot indices of the dense entries. */
  function DenseIndices(s: SparseSet): (xs: seq<int>)
    ensures |xs| == |s.dense|
    ensures forall k :: 0 <= k < |xs| ==> xs[k] == Index(s.dense[k])
  {
    seq(|s.dense|, k requires 0 <= k < |s.dense| => Index(s.dense[k]))
  }

  /** Under the invariant the dense entries have pairwise distinct indices, so
      there are no more of them than slots, and so at most 2^20. */
  lemma DenseBound(s: SparseSet)
    requires WF(s)
    ensures Distinct(s.dense)
    ensures |s.dense| <= |s.sparse| <= INDEX_SPACE
  {
    var xs := DenseIndices(s);
    forall k, l | 0 <= k < l < |xs|
      ensures xs[k] != xs[l]
    {
      assert s.sparse[Index(s.dense[k])] == k;
      assert s.sparse[Index(s.dense[l])] == l;
    }
    DistinctBelowBound(xs, |s.sparse|);
  }

  /** Under the invariant, `contains` is exactly membership in `dense`. */
  lemma ContainsIsMembership(s: SparseSet, e: Entity)
    requires WF(s)
    ensures Contains(s, e) <==> e in s.dense
    ensures Contains(s, e) ==> forall x :: Index(x) == Index(e) && x != e ==> !Contains(s, x)
  {
    if e in s.dense {
      var k :| 0 <= k < |s.dense| && s.dense[k] == e;
      assert s.sparse[Index(s.dense[k])] == k;
    }
  }

  /** The membership half of the above, stated for any set so that callers
      without the invariant in hand can use it. */
  lemma MemberIsContained(s: SparseSet, e: Entity)
    ensures WF(s) && e in s.dense ==> Contains(s, e)
  {
    if WF(s) {
      ContainsIsMembership(s, e);
    }
  }

  /** Under the invariant a present handle's slot holds its only position. */
  lemma ContainsLocates(s: SparseSet, e: Entity)
    requires WF(s)
    requires Contains(s, e)
    ensures s.dense[DenseIndex(s, e)] == e
    ensures forall k :: 0 <= k < Size(s) && s.dense[k] == e ==> k == DenseIndex(s, e)
  {
    DenseBound(s);
  }

  /** Under the invariant, `remove` is always defined. */
  lemma WFRemoveDefined(s: SparseSet, e: Entity)
    requires WF(s)
    ensures RemoveDefined(s, e)
  {
    var idx := Index(e);
    if idx < |s.sparse| && s.sparse[idx] != NULL {
      var last := |s.dense| - 1;
      assert Index(s.dense[last]) < |s.sparse|;
    }
  }

  /** A slot is occupied exactly when some present handle has that index. */
  lemma OccupiedSlot(s: SparseSet, e: Entity)
    requires WF(s)
    ensures (Index(e) < |s.sparse| && s.sparse[Index(e)] != NULL) <==> !IndexFree(s, e)
  {
    DenseBound(s);
    if !IndexFree(s, e) {
      var k :| 0 <= k < |s.dense| && Index(s.dense[k]) == Index(e);
      assert s.sparse[Index(s.dense[k])] == k;
    }
  }

  // ---------------------------------------------------------------------
  // add and remove preserve the invariant

  lemma AddPreservesWF(s: SparseSet, e: Entity)
    requires WF(s)
    requires IndexFree(s, e)
    ensures WF(Add(s, e))
    ensures Size(Add(s, e)) == Size(s) + 1
    ensures forall x :: Contains(Add(s, e), x) <==> Contains(s, x) || x == e
  {
    DenseBound(s);
    var r := Add(s, e);
    assert r.sparse[Index(e)] == |s.dense|;
    forall k | 0 <= k < |r.dense|
      ensures Index(r.dense[k]) < |r.sparse| && r.sparse[Index(r.dense[k])] == k
    {
      if k < |s.dense| {
        assert Index(s.dense[k]) != Index(e);
      }
    }
    assert WF(r);
    forall x
      ensures Contains(r, x) <==> Contains(s, x) || x == e
    {
      ContainsIsMembership(s, x);
      ContainsIsMembership(r, x);
    }
  }

  lemma RemovePreservesWF(s: SparseSet, e: Entity)
    requires WF(s)
    ensures RemoveDefined(s, e)
    ensures WF(Remove(s, e).after)
    ensures Remove(s, e).hook.Some? <==> !IndexFree(s, e)
    ensures forall x :: Index(x) == Index(e) ==> !Contains(Remove(s, e).after, x)
    ensures forall x :: Index(x) != Index(e) ==> (Contains(Remove(s, e).after, x) <==> Contains(s, x))
  {
    WFRemoveDefined(s, e);
    OccupiedSlot(s, e);
    if Remove(s, e).hook.Some? {
      RemoveHitWF(s, e);
      RemoveHitKeepsOthers(s, e);
    }
  }

  /** A removal that finds its slot occupied keeps the invariant. */
  lemma RemoveHitWF(s: SparseSet, e: Entity)
    requires WF(s) && RemoveDefined(s, e)
    requires Remove(s, e).hook.Some?
    ensures WF(Remove(s, e).after)
  {
    DenseBound(s);
    var r := Remove(s, e);
    var idx := Index(e);
    var n := |s.dense|;
    var d := s.sparse[idx];
    var last := s.dense[n - 1];
    var li := Index(last);
    assert s.sparse[li] == n - 1;
    assert Index(s.dense[d]) == idx;
    assert d == n - 1 <==> li == idx;
    forall k | 0 <= k < |r.after.dense|
      ensures Index(r.after.dense[k]) < |r.after.sparse| && r.after.sparse[Index(r.after.dense[k])] == k
    {
      if k == d {
        assert r.after.dense[k] == last;
      } else {
        assert r.after.dense[k] == s.dense[k];
        assert s.sparse[Index(s.dense[k])] == k;
      }
    }
    forall i | 0 <= i < |r.after.sparse| && r.after.sparse[i] != NULL
      ensures r.after.sparse[i] < |r.after.dense| && Index(r.after.dense[r.after.sparse[i]]) == i
    {
      if i != li {
        var k := s.sparse[i];
        assert r.after.sparse[i] == s.sparse[i];
        assert Index(s.dense[k]) == i;
      }
    }
  }

  /** A removal that finds its slot occupied keeps every handle of another slot. */
  lemma RemoveHitKeepsOthers(s: SparseSet, e: Entity)
    requires WF(s) && RemoveDefined(s, e)
    requires Remove(s, e).hook.Some?
    ensures forall x :: Index(x) != Index(e) ==> (Contains(Remove(s, e).after, x) <==> Contains(s, x))
  {
    RemoveHitWF(s, e);
    DenseBound(s);
    var r := Remove(s, e);
    var n := |s.dense|;
    var d := s.sparse[Index(e)];
    forall x | Index(x) != Index(e)
      ensures Contains(r.after, x) <==> Contains(s, x)
    {
      ContainsIsMembership(s, x);
      ContainsIsMembership(r.after, x);
      if x in s.dense {
        var k :| 0 <= k < n && s.dense[k] == x;
        if k == n - 1 {
          assert r.after.dense[d] == x;
        } else {
          assert k != d;
          assert r.after.dense[k] == x;
        }
      }
    }
  }

  /**
    Removal looks only at the slot index: a stale handle that shares its index
    with a present handle removes that present handle.
   */
  lemma StaleRemoveEvictsPresent(s: SparseSet, present: Entity, stale: Entity)
    requires WF(s)
    requires Contains(s, present)
    requires Index(stale) == Index(present)
    ensures Remove(s, stale).hook.Some?
    ensures !Contains(Remove(s, stale).after, present)
    ensures Size(Remove(s, stale).after) == Size(s) - 1
  {
    assert Index(s.dense[DenseIndex(s, present)]) == Index(stale);
    RemovePreservesWF(s, stale);
  }
}

=== FILE: view.dfy ===
/**
  A view over several component pools. It is driven by a smallest pool and
  yields, in the driver's dense order, the handles present in every pool
  together with their payloads. Pools are not mutated while a view is walked,
  so the view is a function of the pools' state.
 */
module Views {
  import opened Entities
  import opened Sequences
  import SS = SparseSets
  import CP = ComponentPools

  datatype View<V> = View(pools: seq<CP.ComponentPool<V>>, driver: nat)

  /** One call of the `each` callback: the handle and one payload per pool, in pool order. */
  datatype Row<V> = Row(entity: Entity, components: seq<V>)

  /** The forward cursor: a position in the driver's dense sequence. */
  datatype Iterator = Iterator(pos: nat)

  /** What every operation of a view needs: a driver among the pools, and
      payloads in lockstep so that `get` is defined for present handles. */
  predicate Defined<V>(v: View<V>) {
    && v.driver < |v.pools|
    && forall j :: 0 <= j < |v.pools| ==> CP.Lockstep(v.pools[j])
  }

  /**
    The constructor's scan: `best` is the first pool of minimum size among
    those before `i`; a later pool replaces it only when strictly smaller.
   */
  function SmallestFrom<V>(pools: seq<CP.ComponentPool<V>>, i: nat, best: nat): (d: nat)
    requires best < |pools| && best <= i <= |pools|
    requires forall j :: 0 <= j < i ==> CP.Size(pools[best]) <= CP.Size(pools[j])
    requires forall j :: 0 <= j < best ==> CP.Size(pools[j]) > CP.Size(pools[best])
    ensures d < |pools|
    ensures forall j :: 0 <= j < |pools| ==> CP.Size(pools[d]) <= CP.Size(pools[j])
    ensures forall j :: 0 <= j < d ==> CP.Size(pools[j]) > CP.Size(pools[d])
    decreases |pools| - i
  {
    if i == |pools| then best
    else SmallestFrom(pools, i + 1, if CP.Size(pools[i]) < CP.Size(pools[best]) then i else best)
  }

  /** The constructor: the driver is the earliest pool of minimum size. */
  function MakeView<V>(pools: seq<CP.ComponentPool<V>>): (v: View<V>)
    requires |pools| > 0
    ensures v.pools == pools && v.driver < |pools|
    ensures forall j :: 0 <= j < |pools| ==> CP.Size(pools[v.driver]) <= CP.Size(pools[j])
    ensures forall j :: 0 <= j < v.driver ==> CP.Size(pools[j]) > CP.Size(pools[v.driver])
  {
    View(pools, SmallestFrom(pools, 0, 0))
  }

  function Driver<V>(v: View<V>): (s: SS.SparseSet)
    requires v.driver < |v.pools|
  {
    v.pools[v.driver].entities
  }

  /** `all_contain(e)`: every bound pool holds `e`. */
  function AllContain<V>(v: View<V>, e: Entity): (b: bool)
    ensures b ==> forall j :: 0 <= j < |v.pools| ==> e in v.pools[j].entities.dense
    ensures |v.pools| == 0 ==> b
  {
    forall j :: 0 <= j < |v.pools| ==> CP.Contains(v.pools[j], e)
  }

  /** The payloads handed to the callback with `e`, one per pool in pool order. */
  function ComponentsOf<V>(v: View<V>, e: Entity): (cs: seq<V>)
    requires Defined(v) && AllContain(v, e)
    ensures |cs| == |v.pools|
    ensures forall j :: 0 <= j < |v.pools| ==> CP.GetDefined(v.pools[j], e) && cs[j] == CP.Get(v.pools[j], e)
  {
    seq(|v.pools|, j requires 0 <= j < |v.pools| && Defined(v) && AllContain(v, e) => CP.Get(v.pools[j], e))
  }

  /** The driver's handles from position `i` on that every pool holds, in driver order. */
  function Qualifying<V>(v: View<V>, i: nat): (es: seq<Entity>)
    requires v.driver < |v.pools| && i <= SS.Size(Driver(v))
    ensures |es| <= SS.Size(Driver(v)) - i
    decreases SS.Size(Driver(v)) - i
  {
    var dense := Driver(v).dense;
    if i == |dense| then []
    else
      var rest := Qualifying(v, i + 1);
      if AllContain(v, dense[i]) then [dense[i]] + rest else rest
  }

  /** A handle qualifies from `i` on exactly when it is in the driver at or
      after `i` and every pool holds it. */
  lemma {:induction false} QualifyingMembers<V>(v: View<V>, i: nat, e: Entity)
    requires v.driver < |v.pools| && i <= SS.Size(Driver(v))
    ensures e in Qualifying(v, i) <==> e in Driver(v).dense[i..] && AllContain(v, e)
    decreases SS.Size(Driver(v)) - i
  {
    var dense := Driver(v).dense;
    if i < |dense| {
      QualifyingMembers(v, i + 1, e);
      assert dense[i..] == [dense[i]] + dense[i + 1..];
    }
  }

  /** `each`: one callback call per qualifying driver handle, with that handle's payloads. */
  function Each<V>(v: View<V>): (rows: seq<Row<V>>)
    requires Defined(v)
    ensures |rows| == |Qualifying(v, 0)|
    ensures forall k :: 0 <= k < |rows| ==> rows[k].entity == Qualifying(v, 0)[k]
    ensures forall k :: 0 <= k < |rows| ==> AllContain(v, rows[k].entity)
    ensures forall k :: 0 <= k < |rows| ==> rows[k].components == ComponentsOf(v, rows[k].entity)
  {
    var es := Qualifying(v, 0);
    assert forall k :: 0 <= k < |es| ==> AllContain(v, es[k]) by {
      forall k | 0 <= k < |es| {
        QualifyingMembers(v, 0, es[k]);
      }
    }
    seq(|es|, k requires 0 <= k < |es| => Row(es[k], ComponentsOf(v, es[k])))
  }

  /** The handles of a sequence of rows. */
  function EntitiesOf<V>(rows: seq<Row<V>>): (es: seq<Entity>)
    ensures |es| == |rows|
    ensures forall k :: 0 <= k < |rows| ==> es[k] == rows[k].entity
  {
    seq(|rows|, k requires 0 <= k < |rows| => rows[k].entity)
  }

  /** The handles `each` passes are the qualifying driver handles. */
  lemma EachEntities<V>(v: View<V>)
    requires Defined(v)
    ensures EntitiesOf(Each(v)) == Qualifying(v, 0)
  {
  }

  /** `size_hint`: the driver's size, an upper bound on the calls `each` makes. */
  function SizeHint<V>(v: View<V>): (n: nat)
    requires Defined(v)
    ensures |Each(v)| <= n
    ensures n == CP.Size(v.pools[v.driver])
    ensures v == MakeView(v.pools) ==> forall j :: 0 <= j < |v.pools| ==> n <= CP.Size(v.pools[j])
  {
    SS.Size(Driver(v))
  }

  // ---------------------------------------------------------------------
  // The cursor

  /** `advance`: skip driver positions whose handle some pool lacks. */
  function Advance<V>(v: View<V>, pos: nat): (r: nat)
    requires v.driver < |v.pools| && pos <= SS.Size(Driver(v))
    ensures pos <= r <= SS.Size(Driver(v))
    ensures r < SS.Size(Driver(v)) ==> AllContain(v, Driver(v).dense[r])
    ensures forall p :: pos <= p < r ==> !AllContain(v, Driver(v).dense[p])
    decreases SS.Size(Driver(v)) - pos
  {
    if pos < SS.Size(Driver(v)) && !AllContain(v, Driver(v).dense[pos]) then Advance(v, pos + 1) else pos
  }

  /** `begin()`: the first qualifying position, or the end. */
  function Begin<V>(v: View<V>): (it: Iterator)
    requires v.driver < |v.pools|
    ensures it.pos <= SS.Size(Driver(v))
    ensures it.pos < SS.Size(Driver(v)) ==> AllContain(v, Driver(v).dense[it.pos])
    ensures forall p :: 0 <= p < it.pos ==> !AllContain(v, Driver(v).dense[p])
  {
    Iterator(Advance(v, 0))
  }

  /** `end()`: the driver's size, where `advance` has nothing to skip. */
  function End<V>(v: View<V>): (it: Iterator)
    requires v.driver < |v.pools|
    ensures it.pos == SS.Size(Driver(v))
  {
    Iterator(Advance(v, SS.Size(Driver(v))))
  }

  /** `operator*` */
  function Deref<V>(v: View<V>, it: Iterator): (e: Entity)
    requires v.driver < |v.pools| && it.pos < SS.Size(Driver(v))
    ensures SS.WF(Driver(v)) ==> SS.Contains(Driver(v), e) && SS.DenseIndex(Driver(v), e) == it.pos
  {
    Driver(v).dense[it.pos]
  }

  /** `operator++` */
  function Next<V>(v: View<V>, it: Iterator): (r: Iterator)
    requires v.driver < |v.pools| && it.pos < SS.Size(Driver(v))
    ensures it.pos < r.pos <= SS.Size(Driver(v))
    ensures r.pos < SS.Size(Driver(v)) ==> AllContain(v, Driver(v).dense[r.pos])
    ensures forall p :: it.pos < p < r.pos ==> !AllContain(v, Driver(v).dense[p])
  {
    Iterator(Advance(v, it.pos + 1))
  }

  /** Skipped positions contribute nothing. */
  lemma QualifyingSkips<V>(v: View<V>, pos: nat)
    requires v.driver < |v.pools| && pos <= SS.Size(Driver(v))
    ensures Qualifying(v, pos) == Qualifying(v, Advance(v, pos))
  {
    QualifyingSkipsTo(v, pos, Advance(v, pos));
  }

  /** A run of non-qualifying positions adds nothing to the walk. */
  lemma {:induction false} QualifyingSkipsTo<V>(v: View<V>, pos: nat, r: nat)
    requires v.driver < |v.pools| && pos <= r <= SS.Size(Driver(v))
    requires forall p :: pos <= p < r ==> !AllContain(v, Driver(v).dense[p])
    ensures Qualifying(v, pos) == Qualifying(v, r)
    decreases r - pos
  {
    if pos < r {
      QualifyingSkipsTo(v, pos + 1, r);
      assert Qualifying(v, pos) == Qualifying(v, pos + 1);
    }
  }

  /** The cursor stops at a qualifying handle or at the end, so `begin != end`
      exactly when `each` makes at least one call. */
  lemma BeginIsEndIffEmpty<V>(v: View<V>)
    requires Defined(v)
    ensures Begin(v) != End(v) <==> |Each(v)| > 0
    ensures Begin(v) != End(v) <==> exists p :: 0 <= p < SS.Size(Driver(v)) && AllContain(v, Driver(v).dense[p])
  {
    QualifyingSkips(v, 0);
  }

  /** From a qualifying position, the cursor's next stop carries the rest, so
      a prefix of the walk grows by the handle at that position. */
  lemma QualifyingStep<V>(v: View<V>, es: seq<Entity>, pos: nat)
    requires v.driver < |v.pools| && pos < SS.Size(Driver(v))
    requires AllContain(v, Driver(v).dense[pos])
    requires es + Qualifying(v, pos) == Qualifying(v, 0)
    ensures (es + [Driver(v).dense[pos]]) + Qualifying(v, Advance(v, pos + 1)) == Qualifying(v, 0)
  {
    var d := Driver(v).dense[pos];
    var rest := Qualifying(v, pos + 1);
    QualifyingSkips(v, pos + 1);
    assert Qualifying(v, pos) == [d] + rest;
    assert (es + [d]) + rest == es + ([d] + rest);
  }

  /** Walking the cursor from `begin` to `end` visits the qualifying handles in
      driver order, which are what `each` yields when it is defined. */
  method Walk<V>(v: View<V>) returns (es: seq<Entity>)
    requires v.driver < |v.pools|
    ensures es == Qualifying(v, 0)
    ensures Defined(v) ==> es == EntitiesOf(Each(v))
  {
    var it := Begin(v);
    var end := End(v);
    QualifyingSkips(v, 0);
    es := [];
    while it.pos != end.pos
      invariant it.pos <= SS.Size(Driver(v))
      invariant it.pos < SS.Size(Driver(v)) ==> AllContain(v, Driver(v).dense[it.pos])
      invariant es + Qualifying(v, it.pos) == Qualifying(v, 0)
      decreases SS.Size(Driver(v)) - it.pos
    {
      QualifyingStep(v, es, it.pos);
      es := es + [Deref(v, it)];
      it := Next(v, it);
    }
    if Defined(v) {
      EachEntities(v);
    }
  }

  // ---------------------------------------------------------------------
  // What `each` yields, for consistent pools

  /** A qualifying handle from `i` on sits at a driver position at or after `i`. */
  lemma QualifyingPosition<V>(v: View<V>, i: nat, k: nat)
    requires v.driver < |v.pools| && SS.WF(Driver(v)) && i <= SS.Size(Driver(v))
    requires k < |Qualifying(v, i)|
    ensures Index(Qualifying(v, i)[k]) < |Driver(v).sparse|
    ensures i <= SS.DenseIndex(Driver(v), Qualifying(v, i)[k])
  {
    var s := Driver(v);
    var e := Qualifying(v, i)[k];
    QualifyingMembers(v, i, e);
    var p :| i <= p < |s.dense| && s.dense[p] == e;
    assert s.sparse[Index(s.dense[p])] == p;
  }

  /** The yielded handles come in strictly increasing driver positions. */
  lemma {:induction false} QualifyingOrdered<V>(v: View<V>, i: nat, k: nat, l: nat)
    requires v.driver < |v.pools| && SS.WF(Driver(v)) && i <= SS.Size(Driver(v))
    requires k < l < |Qualifying(v, i)|
    ensures Index(Qualifying(v, i)[k]) < |Driver(v).sparse| && Index(Qualifying(v, i)[l]) < |Driver(v).sparse|
    ensures SS.DenseIndex(Driver(v), Qualifying(v, i)[k]) < SS.DenseIndex(Driver(v), Qualifying(v, i)[l])
    decreases SS.Size(Driver(v)) - i
  {
    var s := Driver(v);
    var e := s.dense[i];
    var es := Qualifying(v, i);
    var rest := Qualifying(v, i + 1);
    if AllContain(v, e) {
      assert es == [e] + rest;
      if k == 0 {
        assert s.sparse[Index(s.dense[i])] == i;
        QualifyingPosition(v, i + 1, l - 1);
      } else {
        assert es[k] == rest[k - 1] && es[l] == rest[l - 1];
        QualifyingOrdered(v, i + 1, k - 1, l - 1);
      }
    } else {
      assert es == rest;
      QualifyingOrdered(v, i + 1, k, l);
    }
  }

  ghost predicate AllValid<V>(pools: seq<CP.ComponentPool<V>>) {
    forall j :: 0 <= j < |pools| ==> CP.Valid(pools[j])
  }

  /** `each` follows the driver's dense order: later calls are at later positions. */
  lemma EachInDriverOrder<V>(v: View<V>)
    requires Defined(v) && AllValid(v.pools)
    ensures forall k, l :: 0 <= k < l < |Each(v)| ==>
              Index(Each(v)[k].entity) < |Driver(v).sparse| &&
              Index(Each(v)[l].entity) < |Driver(v).sparse| &&
              SS.DenseIndex(Driver(v), Each(v)[k].entity) < SS.DenseIndex(Driver(v), Each(v)[l].entity)
  {
    assert CP.Valid(v.pools[v.driver]);
    var rows := Each(v);
    var es := Qualifying(v, 0);
    forall k, l | 0 <= k < l < |rows|
      ensures Index(rows[k].entity) < |Driver(v).sparse| && Index(rows[l].entity) < |Driver(v).sparse|
      ensures SS.DenseIndex(Driver(v), rows[k].entity) < SS.DenseIndex(Driver(v), rows[l].entity)
    {
      QualifyingOrdered(v, 0, k, l);
      assert rows[k].entity == es[k] && rows[l].entity == es[l];
    }
  }

  /** The handles `each` yields are exactly those present in every pool, each
      once, whichever pool drives. */
  lemma EachIsIntersection<V>(v: View<V>)
    requires Defined(v) && AllValid(v.pools)
    ensures forall e :: e in EntitiesOf(Each(v)) <==> (forall j :: 0 <= j < |v.pools| ==> e in v.pools[j].entities.dense)
    ensures Distinct(EntitiesOf(Each(v)))
  {
    var es := Qualifying(v, 0);
    var s := Driver(v);
    assert CP.Valid(v.pools[v.driver]);
    EachEntities(v);
    forall e
      ensures e in es <==> (forall j :: 0 <= j < |v.pools| ==> e in v.pools[j].entities.dense)
    {
      QualifyingMembers(v, 0, e);
      assert s.dense[0..] == s.dense;
      forall j | 0 <= j < |v.pools| {
        SS.ContainsIsMembership(v.pools[j].entities, e);
      }
    }
    forall k, l | 0 <= k < l < |es|
      ensures es[k] != es[l]
    {
      QualifyingOrdered(v, 0, k, l);
    }
  }

  /** Driving the same pools from any two pools yields the same handles, each
      once: the two sequences are permutations of each other. */
  lemma DriverIrrelevant<V>(pools: seq<CP.ComponentPool<V>>, d1: nat, d2: nat)
    requires Defined(View(pools, d1)) && Defined(View(pools, d2)) && AllValid(pools)
    ensures multiset(EntitiesOf(Each(View(pools, d1)))) == multiset(EntitiesOf(Each(View(pools, d2))))
  {
    EachIsIntersection(View(pools, d1));
    EachIsIntersection(View(pools, d2));
    SameMembersSameMultiset(EntitiesOf(Each(View(pools, d1))), EntitiesOf(Each(View(pools, d2))));
  }

  /** Each yielded row carries, for every pool, the payload that pool pairs with the handle. */
  lemma EachPairsPayloads<V>(v: View<V>)
    requires Defined(v) && AllValid(v.pools)
    ensures forall r, j, k ::
              (r in Each(v) && 0 <= j < |v.pools| && 0 <= k < CP.Size(v.pools[j]) &&
               v.pools[j].entities.dense[k] == r.entity) ==> r.components[j] == v.pools[j].components[k]
  {
  }
}
